=== FILE: README.md ===
# zenedit audio and note core in Dafny

zenedit is a distraction-free writing page. Behind the page sits a nature-sound player and a
list of pinned notes. This project models the logic behind both:

- **Equalizer settings** (`equalizer.dfy`). These are the five integer bands, the three presets
  with their fallback, single-band updates, and the `base × band / 50` gain formula.
- **Scene catalogue and builder** (`scene.dfy`). `createNatureSound` is modelled as a pure
  function from a scene id and equalizer settings to a declarative graph. The graph has:
  - a master gain wired to the output;
  - one chain per layer, giving its source, modulation, filter and gain;
  - the owned entries teardown walks (sources, LFOs, interval timers);
  - the nodes the builder starts but never records;
  - the gain nodes it leaves dangling.
- **Teardown** (`teardown.dfy`). Every interval is cleared and every node is stopped; an
  exception from `stop()` is swallowed.
- **Transient sounds** (`transients.dfy`). These are the bird-chirp and owl-call envelopes and
  frequency sweeps, and an interval firing. A firing on a closed context clears its own
  interval.
- **Playback controller** (`playback.dfy`). The React state (`isPlaying`, scene, settings,
  volume) is a record, and the effects are pure transitions over it:
  - the play effect;
  - the volume effect;
  - unmount;
  - `resume()` settling;
  - timer firings.

  Graphs are kept in build order, and `audioRef` is an index into them. A graph is *live* while
  an owned node still plays or an owned interval is not cleared.
- **Text helpers** (`text.dfy`). These cover JavaScript white space, `trim`, `split`, `join`,
  the tag-stripping expression `/<[^>]*>/g`, and the word count.
- **Editor hand-off** (`editor.dfy`). This is the plain text ↔ `<br>` conversion of
  `zen-editor.js`, together with what the browser does between the two halves. Assigning
  `innerHTML` parses the string, turning CR LF and lone CR into LF and dropping NUL. Reading `innerHTML` back
  serialises the region, writing `&`, `<`, `>` and the no-break space of text as entity
  references and tags as they stand.
- **Pinned notes** (`notes.dfy`). These cover the title, pin, remove and collapse toggle.

`zen-editor.js` and `zen-editor.jsx` are two copies of the same component, so the model
describes them once. Where the copies differ, the model takes `Common.Copy` as a parameter:

- **Resume policy.** On a suspended context, the `.jsx` copy fires `resume()` and builds at
  once. The `.js` copy builds inside the promise callbacks, which run on success and on failure.
  A `ResumeSettled` event settles the oldest outstanding promise.
- **Editor hand-off.** The `.js` copy converts between text and html. The `.jsx` copy writes
  the content into the region as html and reads the region's html back as the new content.

React reruns an effect only when one of its dependencies changes. The play flag and scene id
must change value. The settings object counts as changed on every equalizer change, because
every change builds a new object. Calls to `Math.random()` become parameters of type
`Common.Rand`, which holds reals in [0, 1).

## Model

| member | source | states |
|---|---|---|
| Equalizer.Preset | zen-editor.js:1016-1023 | `nature` gives 70/60/50/40/30 and `deep` gives 100/80/40/20/10. Every other name, `clear` included, falls back to all bands at 50. Every preset band lies in 0..100. |
| Equalizer.Apply | zen-editor.js:1016-1029 | A preset change gives that preset's settings, an unknown name falling back to all bands at 50. A band change sets that band and leaves the other four as they were. |
| Equalizer.SetBand | zen-editor.jsx:959-964 | The updated band holds the new value, and each of the other four bands keeps its old value. |
| Equalizer.SetBandLaws | zen-editor.jsx:959-964 | Setting a band to the value it already has changes nothing. Setting it twice keeps only the last value. |
| Equalizer.Scaled | zen-editor.js:69 | A band at 50 yields the base gain, at 0 yields silence and at 100 yields double the base. The gain is never negative. For a positive base, the gain is below the base exactly when the band is below 50. |
| Equalizer.ScaledMonotonic | zen-editor.js:111 | Raising a band never lowers the gain of a chain that follows it. |
| SceneGraph.CatalogIds | zen-editor.js:18-38 | The ids the builder knows are exactly the ids of the four catalogue scenes. |
| SceneGraph.Build | zen-editor.js:51-229 | In every case a master gain is created and connected, its value is left unset, and the settings are captured. A known scene gets two chains, each at its level formula, and a non-empty owned list. An unknown id gets neither. The new graph is live exactly when the id is known. Every started-but-unowned node is left playing. |
| SceneGraph.RainScene | zen-editor.js:61-89 | Rain owns [pink, brown]: pink noise through a 2 kHz low-pass at 0.4·high/50, and brown noise through an 80 Hz low-pass at a fixed 0.02. |
| SceneGraph.OceanScene | zen-editor.js:91-132 | Ocean owns [pink, LFO, brown]: a 400 Hz band-pass (Q 0.5) swept by a 0.1 Hz LFO at 0.35·low/50, and a 300 Hz low-pass at 0.15·mid/50. |
| SceneGraph.ForestScene | zen-editor.js:134-188 | Forest owns [pink, pink, LFO, interval]. The layers are a 1 kHz low-pass at 0.2·mid/50, and wind through a 600 Hz band-pass (Q 0.3) swept at 0.2 Hz at 0.1·high/50. The bird period is fixed once, within [2000, 5000) ms. |
| SceneGraph.NightScene | zen-editor.js:190-227 | Night owns [cricket oscillator, pink, interval]. The cricket oscillator is never started, and its gain is 0.3·high/50. Wind goes through a 400 Hz low-pass at 0.15·low/50. The owl period lies within [15000, 35000) ms. The started cricket LFO is left outside the owned list, and a 0.15 gain leads nowhere. |
| SceneGraph.UnknownScene | zen-editor.js:54-60 | An id outside the catalogue builds nothing but the master gain. It owns nothing and is not live. |
| SceneGraph.BandScaling | zen-editor.js:143 | For every chain of every scene: with all bands at 50 the chain plays at its base level, a band at 0 silences it, and a band at 100 doubles it. |
| Teardown.Release | zen-editor.js:816-827 | After release an entry no longer holds sound. An interval is cleared and keeps its kind and period. A playing node is stopped. A node whose `stop()` throws is left as it was, and the exception is swallowed. |
| Teardown.TeardownGraph | zen-editor.js:814-829 | After teardown the graph is not live. Each owned entry is replaced by what `Release` makes of it, in place, and every other part of the graph is kept: chains, master gain, output connection, dead-end gains and started-but-unowned nodes. |
| Teardown.RunTeardown | zen-editor.js:816-827 | The `forEach` loop releases each owned entry in order, and it counts exactly the `stop()` exceptions the reference definition counts. |
| Teardown.TeardownIdempotent | zen-editor.js:814-829 | Tearing a graph down twice leaves it as tearing it down once does. |
| Teardown.SecondTeardownOnlyThrows | zen-editor.js:819-825 | A second teardown swallows one exception per owned node and raises nothing. The count rests on the `stop()` rule chosen under Left out. |
| Teardown.NightLeavesCricketLfo | zen-editor.js:306-328 | After the night graph is torn down, its cricket LFO is still playing. |
| Transients.BirdChirp | zen-editor.jsx:255-271 | The chirp is a sine wave. Its gain goes 0 → 0.05·midHigh/50 at +0.05 → 0 at +0.2, and it stops at +0.25. Its frequency sweeps from [2000, 3000) up to [4000, 5000) by +0.1, strictly upward. |
| Transients.OwlCall | zen-editor.jsx:299-315 | The call is a sawtooth. Its gain goes 0 → 0.03 at +0.1 → 0 at +0.3, and it stops at +0.35. Its frequency goes from 800 to 500 by +0.3. |
| Transients.Fire | zen-editor.js:151-156 | A cleared or missing interval does nothing. On a closed context the interval clears itself, keeping its kind and period, and nothing plays. Otherwise the graph is unchanged, and a chirp (forest) or an owl call (night) plays. Only the fired entry can change, and a firing never makes a graph live. |
| Transients.ClearedStaysSilent | zen-editor.js:215-220 | Once a closed-context firing has cleared the interval, every later firing does nothing. |
| Text.TrimShape | zen-editor.jsx:656 | `s` is leading white space, then the result, then trailing white space. The result is empty exactly when `s` is all white space; otherwise it starts and ends with a non-space. |
| Text.SplitOn | zen-editor.js:603 | Yields at least one piece. No piece contains the separator. Joining the pieces with the separator gives back the input, and text without the separator is a single piece. |
| Text.StripTags | zen-editor.jsx:656 | Text without `<`, or without `>`, is unchanged. The result is never longer than the input. |
| Text.StripTagsLeavesNoTag | zen-editor.js:615 | No `<` with a later `>` is left, and the result uses only characters of the input. |
| Text.StripTagsPlainPrefix | zen-editor.js:615 | Text before the first `<` is kept as it stands, and the rest is stripped on its own. |
| Text.StripTagsDropsTag | zen-editor.js:615 | A `<`, the characters up to the first `>` after it, and that `>` are removed together; what follows is stripped as before. |
| Text.Join | zen-editor.js:605 | No parts give the empty string. Otherwise the first part begins the result, followed by the separator when there is a second part. |
| Text.JoinAvoids | zen-editor.js:605 | Joining adds no character found in neither the parts nor the separator. |
| Text.SplitWs | zen-editor.jsx:657 | There is at least one piece, and no piece holds white space. Only the first and last piece can be empty, and text starting with a non-space has a non-empty first piece. |
| Text.SplitWsCountsWords | zen-editor.jsx:657 | For trimmed, non-empty text, `split(/\s+/)` yields one piece per maximal non-white-space run. |
| Text.WordsOfTrim | zen-editor.jsx:656 | Trimming does not change the number of maximal non-white-space runs. |
| Text.WordCount | zen-editor.jsx:655-658 | The count equals the number of maximal non-white-space runs of the tag-stripped text. It is 0 exactly when that text is all white space. |
| EditorSync.TextToHtml | zen-editor.js:603-605 | Empty content becomes a single `<br>`. A single line without `<` is unchanged. |
| EditorSync.HtmlToText | zen-editor.js:614-615 | Html without `<` is unchanged, and the result contains no `<` with a later `>`. |
| EditorSync.ReplaceBr | zen-editor.js:615 | Html without `<` is unchanged. |
| EditorSync.ReplaceBrAnyForm | zen-editor.js:615 | Every match of `<br\s*\/?>` in any letter case — `b` or `B`, `r` or `R`, any run of white space, with or without the slash — becomes one newline, and the rest is processed on. |
| EditorSync.ReplaceBrPlain | zen-editor.js:615 | Text before the first `<` is kept as it stands. |
| EditorSync.BrTagLength | zen-editor.js:615 | A match of `<br\s*\/?>` runs from `<` to the first `>` after it, and what it covers is one whole `<br>` form (`IsBrTag`): `b` or `B`, `r` or `R`, white space only, at most one `/` just before the `>`. |
| EditorSync.BrTagLengthComplete | zen-editor.js:615 | Conversely, whenever the html opens with a whole `<br>` form, the match covers exactly that form. |
| EditorSync.OtherTagNotBr | zen-editor.js:615 | A tag `<t>` with no `>` inside that is not a whole `<br>` form gives no match at its `<`. |
| EditorSync.OtherNameNotBr | zen-editor.js:615 | A tag whose name does not start with `br`, in any letter case, is not a `<br>` form. |
| EditorSync.BrLookalikes | zen-editor.js:615 | `<br class="x">`, `<brand>` and `<br/ >` are not `<br>` forms, and `<BR />` is one. |
| EditorSync.ReplaceBrOtherTag | zen-editor.js:615 | A tag that is not a whole `<br>` form, such as `<brand>` or `<br class="x">`, is passed on unchanged. |
| EditorSync.HtmlToTextPlain | zen-editor.js:614-615 | Reading back keeps text before the first `<` as it stands. |
| EditorSync.HtmlToTextBr | zen-editor.js:614-615 | Reading back turns each `<br\s*\/?>` form, in any letter case, into one newline. |
| EditorSync.HtmlToTextOtherTag | zen-editor.js:614-615 | Reading back drops every tag that is not a whole `<br>` form, leaving nothing in its place. |
| EditorSync.HtmlToTextNoGt | zen-editor.js:614-615 | Html with no `>` is read back unchanged, so a `<` with no `>` after it stays as text. |
| EditorSync.LtInsideTag | zen-editor.js:614-615 | In `<a<br>x` the `<br>` still becomes a newline, and the `<a` before it is kept as text. |
| EditorSync.ReplaceBrMarked | zen-editor.js:615 | Mapping `<br>` to a newline undoes the `<br>` join, with each empty-line marker giving one extra newline. |
| EditorSync.AsWrittenRoundTrip | zen-editor.js:600-618 | For text without `<`, html → text after text → html joins the lines with newlines, with every empty line turned into a newline. |
| EditorSync.RoundTripWithoutBlankLines | zen-editor.js:600-618 | Text with no `<` and no empty line comes back unchanged. |
| EditorSync.BlankLineGainsNewline | zen-editor.js:603-605 | The text `a`, blank line, `b` comes back with one more newline (see Findings). |
| EditorSync.TextToHtmlKeepingBlankLines | zen-editor.js:603-605 | A single line is unchanged. When no line is empty, the result equals the as-written conversion, so the correction changes only empty lines. |
| EditorSync.RoundTripKeepingBlankLines | zen-editor.js:603-615 | With empty lines left empty before the `<br>` join, every text without `<` comes back unchanged (see Findings). |
| EditorSync.NormalizeNewlines | zen-editor.js:606 | No CR is left, and text without CR is unchanged. |
| EditorSync.NormalizeLoneCr | zen-editor.js:606 | A CR not followed by LF becomes LF. |
| EditorSync.Escape | zen-editor.js:613 | Exactly `&`, `<`, `>` and the no-break space are rewritten, to `&amp;`, `&lt;`, `&gt;` and `&nbsp;`. Each is an entity reference running from `&` to `;`. |
| EditorSync.SerializePlain | zen-editor.js:613 | Text without those four characters is written back as it stands. |
| EditorSync.SerializeEscapes | zen-editor.js:613 | A character that does not open a tag is written as `Escape` gives it. |
| EditorSync.SerializeBr | zen-editor.js:613 | A `<br>` tag is written back as `<br>`. |
| EditorSync.SerializeJoin | zen-editor.js:603-613 | Lines free of the four escaped characters, joined with `<br>`, are written back unchanged. |
| EditorSync.DropNul | zen-editor.js:606 | No NUL is left, and text without NUL is unchanged. |
| EditorSync.Reparse | zen-editor.js:606-613 | The html read back contains no CR and no NUL. The CR clause holds because character references are not decoded in the model (see Left out). |
| EditorSync.ReparseJoin | zen-editor.js:603-613 | `<br>`-joined lines free of the escaped characters, of CR and of NUL survive the write and the read back. |
| EditorSync.ReparseDropsNul | zen-editor.js:606-613 | A NUL between two runs of plain text is gone when the region is read back. |
| EditorSync.ReparseCr | zen-editor.js:606-613 | A CR before a `<br>` is read back as a newline of its own. |
| EditorSync.Reload | zen-editor.js:600-618 | The text handed back contains no CR (in the model only: see Left out). Under the `.js` copy it also contains no `<` with a later `>`. |
| EditorSync.ReloadKeeps | zen-editor.js:600-618 | Text without `<`, `&`, `>`, no-break space, CR or NUL comes back unchanged from the `.jsx` hand-off. Under the `.js` copy this holds when, in addition, no line is empty. |
| EditorSync.ReloadDropsNul | zen-editor.js:600-618 | Under both copies, a NUL typed between two runs of plain text is lost on the round trip. |
| EditorSync.ReloadEscapesAmpersand | zen-editor.js:606-615 | Under the `.js` copy, the typed text `a & b` comes back as `a &amp; b`. |
| EditorSync.ReloadJsxEscapesAmpersand | zen-editor.jsx:583 | Under the `.jsx` copy, the content `a & b` comes back as `a &amp; b`. |
| EditorSync.ReloadCrLf | zen-editor.js:603-615 | Under the `.js` copy, a CR LF line end comes back as two newlines: the CR becomes one and the `<br>` after it another. |
| Notes.FirstLine | zen-editor.jsx:861 | The first line is the first piece of `split('\n')`: a prefix with no newline, followed by a newline whenever it is shorter than the text. |
| Notes.Title | zen-editor.jsx:861 | The title is non-empty, at most 40 characters long and has no newline. Empty text, or text starting with a newline, gives `Untitled Note`. Otherwise the title is the longest prefix of the first line that has at most 40 characters. |
| Notes.PinNote | zen-editor.jsx:856-869 | White-space-only text leaves the list unchanged. Otherwise exactly one note (id, title, content, stamp) is appended and the earlier notes are untouched. |
| Notes.RemoveNote | zen-editor.jsx:872-874 | A note survives exactly when it was present and its id differs from the given id. The list never grows, and it keeps its length exactly when no note has that id. |
| Notes.RemoveNoteConcat | zen-editor.jsx:872-874 | Removal distributes over concatenation, so the surviving notes keep their order. |
| Notes.RemoveNoteTwice | zen-editor.jsx:872-874 | Removing the same id twice is the same as removing it once. |
| Notes.RemoveAbsent | zen-editor.jsx:872-874 | Removing an id that no note carries leaves the list unchanged. |
| Notes.PinThenRemove | zen-editor.jsx:856-874 | Pinning and then removing the new note's id gives back the original list, provided no earlier note has the same timestamp id. |
| Notes.ToggleCollapse | zen-editor.jsx:882-887 | Only the given id's flag is flipped: the id joins the keys, and every other key keeps its flag. |
| Notes.ToggleTwice | zen-editor.jsx:882-887 | Toggling an id twice gives every id its original collapsed state. |
| Playback.GetAudioContext | zen-editor.js:43-48 | The first call creates the context in the state the browser gives it. Later calls return the existing context, even a closed one. |
| Playback.GetAudioContextStable | zen-editor.js:43-48 | A second call returns what the first returned, whatever a second creation would have given. |
| Playback.PlayEffect | zen-editor.js:812-845 | The previous graph is torn down, and no other graph is touched. When paused, no handle remains. When playing on a non-suspended context, the scene is built and installed. On a suspended context the `.jsx` copy builds at once while the `.js` copy queues a build carrying the scene and settings. |
| Playback.VolumeEffect | zen-editor.jsx:789-793 | With a handle, its master gain becomes volume·0.3. Nothing else in any graph changes, and without a handle nothing happens. |
| Playback.Settle | zen-editor.js:834-840 | The oldest promise is settled. Success makes a suspended context run. A queued build runs whether the promise resolved or failed, and it is installed without tearing down what the handle held. Mounting, play state, scene, settings and volume are kept. |
| Playback.UnmountEffect | zen-editor.js:855-878 | The handle's graph is torn down, the reference is kept, and the context is closed. When no context existed, one is first created. Nothing else changes: play state, scene, settings, volume and the queued `resume()` promises are kept. |
| Playback.TimerEffect | zen-editor.js:151-156 | The fired graph becomes what `Transients.Fire` makes of it, and every other graph and field is unchanged. A serial beyond the graphs changes nothing. A firing never makes a graph live. |
| Playback.ReleaseHandle | zen-editor.js:814-829 | The handle is dropped and the graph it referred to is torn down. The number of graphs stays the same, and every other graph and field is unchanged. |
| Playback.Step | zen-editor.js:812-878 | Events reaching an unmounted controller change nothing, except settlements and timer firings. Setting the play flag, scene id or volume to its current value changes nothing, because React reruns an effect only when a dependency changes. An equalizer change applies the change and tears down the handle's graph. A volume change keeps the handle, the graph count and the pending builds. Unmount leaves the controller unmounted. |
| Playback.StepKeepsInv | zen-editor.jsx:759-786 | Under the `.jsx` policy every event preserves four facts: the handle is in range; while mounted a handle exists exactly when playing; only the handle's graph can be live; and no build waits on a promise. |
| Playback.RunKeepsInv | zen-editor.jsx:759-786 | The invariant holds after any sequence of events. |
| Playback.JsxAtMostOneLive | zen-editor.jsx:759-786 | From the initial state, under the `.jsx` policy, at most one graph is ever live. While mounted, a handle exists exactly when playing. |
| Playback.ChangeTearsDownFirst | zen-editor.js:812-829 | Under either copy, a change of play flag, scene id or settings tears down the handle's graph before anything is built. After a pause no handle remains. |
| Playback.VolumeNeverRebuilds | zen-editor.jsx:789-793 | A volume change never builds, tears down or drops anything. Only the handle's master gain changes, and while idle only the stored volume changes. |
| Playback.BuiltGraphIgnoresVolume | zen-editor.jsx:43-46 | A graph built by a play has its master gain unset, whatever the volume; the volume reaches the graph only on the next volume change. |
| Playback.JsBuildsOnEitherOutcome | zen-editor.js:834-840 | Under the `.js` policy a queued build runs on success and on failure of `resume()`. |
| Playback.UnmountCloses | zen-editor.js:855-878 | After unmount the context is closed and the handle's graph is silent. |
| Playback.JsTwoLiveGraphs | zen-editor.js:834-845 | Under the `.js` policy, play then a scene change on a suspended context, followed by two resolutions, leaves two live graphs. The first one is no longer referenced. |
| Playback.JsPlaysWhilePaused | zen-editor.js:834-840 | Under the `.js` policy, play then pause before a failed `resume()` settles leaves a live graph installed while the controller shows paused. |

## Left out

- Noise buffer synthesis (`createPinkNoise`, `createBrownNoise`) is not modelled. It fills four-second buffers with random IEEE doubles; sources are abstract kinds here.
- The Web Audio API itself is not modelled: node connection, audio-parameter scheduling and sound output. Nodes and automation events are plain data, and the builder's graph records what is connected.
- The contents of sound, filter and oscillator values are not modelled. Gains, frequencies and times are mathematical reals, not IEEE doubles.
- React rendering, CSS, the shader canvas, the clock display and the visualizer's random durations are not modelled. They are presentation only.
- `localStorage`, JSON parsing of saved settings, file save/import, `alert`/`confirm` and `document.execCommand` are not modelled. They are browser I/O.
- The editors' keyboard handlers and the window keyboard shortcuts are not modelled, because they are UI event plumbing.
- `app-init.js`, `service-worker.js` and `service-worker-init.js` are not part of this model. They handle DOM start-up and service-worker registration.
- Real timers and promise scheduling are not modelled as concurrency. Timer firings and `resume()` settlement are explicit events, and the promises settle in the order they were made.
- The clock (`Date.now()`, `toLocaleString`) and the context time are parameters of `Notes.PinNote` and of the `TimerFired` event.
- The interval period is drawn once, when `setInterval` is called (zen-editor.js:156 and 220), so every firing of one interval has the same period. `setInterval` converts its delay to a WebIDL `long`, so the browser uses the period truncated to whole milliseconds. The model keeps the real value. The stated ranges hold for the truncated value too, because their bounds are whole numbers.
- `stop()` is modelled as throwing unless the node is playing: a never-started node and an already-stopped node both throw. Either way the exception is swallowed, so teardown's outcome does not depend on this choice. The number of swallowed exceptions does depend on it. Under the current Web Audio rules only a never-started node throws, so a second teardown would swallow one exception per never-started owned node, not one per owned node.
- EditorSync.Reload: the browser's parser is modelled only for newline normalisation and for dropping NUL, and its serialiser only for text escaping and tags written back as they stand. Character references are not decoded when parsed, and the parser's repair of markup is not modelled: closing unclosed elements, lower-casing tag names, dropping or rewriting malformed tags. So no exact result is stated for text holding `<`, `&` or `>` beyond the lemmas above. In particular, the "no CR" clauses of `Reparse` and `Reload` hold in the model only: in the browser, text holding the reference `&#13;` is parsed to a CR, which the serialiser writes back raw.
- EditorSync.DropNul: inside a tag the parser turns a NUL into U+FFFD rather than dropping it. The model drops it there too.
- Notes.Title: `substring(0, 40)` counts UTF-16 code units, but the model counts Dafny characters, which are Unicode scalar values. A first line holding characters outside the Basic Multilingual Plane can therefore be cut at a different place, and the source can split a surrogate pair.
- Playback.GetAudioContext: a browser providing neither `AudioContext` nor `webkitAudioContext` makes `new` throw a TypeError (zen-editor.js:45). The model assumes a constructor exists, so creation always succeeds.
- Equalizer.Preset: a preset name that is also an `Object.prototype` property (such as `toString`) would pick that property in JavaScript rather than fall back. Such names are treated like any unknown name.
- Playback.Settle: a queued `.js` build that settles after unmount is modelled as building on the closed context. What the browser does with nodes made on a closed context is outside the model.
- Playback.UnmountEffect: the context's own `close()` is modelled as immediate. Its promise is not modelled.

## Findings

| source | as written | input that shows it | evidently intended | confidence | as-written member | corrected member |
|---|---|---|---|---|---|---|
| zen-editor.js:603-615 | Each empty line becomes `<br>` and the lines are then joined with `<br>`. An empty line therefore produces two `<br>`, and converting back gives two newlines where there was one. | the text `a`, blank line, `b` (`"a\n\nb"`) comes back as `"a\n\n\nb"` | converting to html and back returns the text; every blank line is kept as one blank line | not executed | EditorSync.BlankLineGainsNewline | EditorSync.RoundTripKeepingBlankLines |

The conversion runs each time the editor's content changes, so a text with blank lines gains one
newline per blank line on each edit. `EditorSync.TextToHtml` models the code as written.
`EditorSync.TextToHtmlKeepingBlankLines` leaves empty lines empty before the join.
`EditorSync.RoundTripKeepingBlankLines` proves that this corrected conversion makes the round trip
exact for text without `<`.

=== FILE: common.dfy ===
/** Small shared vocabulary: an optional value and the range of `Math.random()`. */
module Common {

  /** A value that may be absent; used where the source holds `null` or leaves a field unset. */
  datatype Option<+T> = None | Some(value: T)

  /** The two near-duplicate copies of the editor: `zen-editor.js` and `zen-editor.jsx`. They share
      the audio core and differ in how playback waits for a suspended context and in how the
      editor hands its content to the text state. */
  datatype Copy = Js | Jsx

  /** A draw of `Math.random()`: a real in the half-open interval [0, 1). */
  type Rand = r: real | 0.0 <= r < 1.0 witness 0.0
}

=== FILE: editor.dfy ===
/** How the editor moves its content between the text state and the editable region.
    `zen-editor.js` converts plain text to HTML with `<br>` line breaks and back; `zen-editor.jsx`
    stores the region's HTML as the text unchanged. Between the write and the read the browser
    parses the HTML and serialises it again; the model keeps the effects of that step that
    plain text meets (newline normalisation, dropped NUL characters and the escaping of text
    characters) and carries tags through as written. */
module EditorSync {
  import opened Common
  import opened Text

  /** `line || '<br>'` on every line. */
  function MarkEmptyLines(lines: seq<string>): seq<string>
  {
    seq(|lines|, k requires 0 <= k < |lines| => if lines[k] == [] then "<br>" else lines[k])
  }

  /** Plain text to HTML, as the `.js` editor writes its region:
      split on newlines, mark empty lines with `<br>`, join with `<br>`. */
  function TextToHtml(content: string): (html: string)
    ensures '<' !in content && content != [] && '\n' !in content ==> html == content
    ensures content == [] ==> html == "<br>"
  {
    Join(MarkEmptyLines(SplitOn(content, '\n')), "<br>")
  }

  /** Length of the `<br\s*\/?>` match (any letter case) at the start of `s`, or 0 if there is none. */
  function BrTagLength(s: string): (n: nat)
    ensures n == 0 || (4 <= n <= |s| && s[0] == '<' && s[n - 1] == '>')
    ensures n > 0 ==> '>' !in s[1..n - 1]
    ensures n > 0 ==> IsBrTag(s[..n])
  {
    if |s| < 3 || s[0] != '<' || (s[1] != 'b' && s[1] != 'B') || (s[2] != 'r' && s[2] != 'R') then 0
    else
      var k := 3 + LeadingSpaces(s[3..]);
      var k' := if k < |s| && s[k] == '/' then k + 1 else k;
      if k' < |s| && s[k'] == '>' then
        BrTagEnd(s, k, k');
        BrTagShape(s, k, k');
        k' + 1
      else 0
  }

  /** `t` is one whole match of `<br\s*\/?>`: `<`, `b` or `B`, `r` or `R`, a run of white space,
      at most one `/`, and `>`. */
  predicate IsBrTag(t: string)
  {
    |t| >= 4 && t[0] == '<' && (t[1] == 'b' || t[1] == 'B') && (t[2] == 'r' || t[2] == 'R')
    && t[|t| - 1] == '>'
    && (AllSpace(t[3..|t| - 1]) || (|t| >= 5 && t[|t| - 2] == '/' && AllSpace(t[3..|t| - 2])))
  }

  lemma {:induction false} BrTagShape(s: string, k: nat, e: nat)
    requires |s| >= 3 && s[0] == '<' && (s[1] == 'b' || s[1] == 'B') && (s[2] == 'r' || s[2] == 'R')
    requires k == 3 + LeadingSpaces(s[3..])
    requires e == k || (e == k + 1 && k < |s| && s[k] == '/')
    requires e < |s| && s[e] == '>'
    ensures IsBrTag(s[..e + 1])
  {
    var t := s[..e + 1];
    assert t[3..k] == s[3..][..k - 3];
    if e == k {
      assert t[3..|t| - 1] == t[3..k];
    } else {
      assert t[3..|t| - 2] == t[3..k];
    }
  }

  /** Conversely, when `s` opens with a whole `<br>` form, `BrTagLength` measures exactly that form. */
  lemma {:induction false} BrTagLengthComplete(s: string, j: nat)
    requires 0 < j <= |s| && IsBrTag(s[..j])
    ensures BrTagLength(s) == j
  {
    var t := s[..j];
    assert s[0] == t[0] && s[1] == t[1] && s[2] == t[2] && s[j - 1] == t[j - 1] && s[j - 2] == t[j - 2];
    if AllSpace(t[3..j - 1]) {
      assert t[3..j - 1] == s[3..j - 1];
      GtIsNotSpace();
      SpacesEndAt(s, j - 1);
    } else {
      assert t[3..j - 2] == s[3..j - 2];
      SlashIsNotSpace();
      SpacesEndAt(s, j - 2);
    }
  }

  /** The white space after `<br` runs up to the first character that is not white space. */
  lemma {:induction false} SpacesEndAt(s: string, e: nat)
    requires 3 <= e < |s| && AllSpace(s[3..e]) && !IsSpace(s[e])
    ensures LeadingSpaces(s[3..]) == e - 3
  {
    assert s[3..] == s[3..e] + s[e..];
    LeadingSpacesBefore(s[3..e], s[e..]);
  }

  lemma NotSpaceLetters()
    ensures !IsSpace('c') && !IsSpace('a') && !IsSpace('/')
  {
  }

  lemma GtIsNotSpace()
    ensures !IsSpace('>')
  {
  }

  lemma SlashIsNotSpace()
    ensures !IsSpace('/')
  {
  }

  /** Between `<br` and the closing `>` there is only white space and at most one `/`. */
  lemma {:induction false} BrTagEnd(s: string, k: nat, e: nat)
    requires |s| >= 3 && s[1] != '>' && s[2] != '>'
    requires k == 3 + LeadingSpaces(s[3..])
    requires e == k || (e == k + 1 && k < |s| && s[k] == '/')
    requires e < |s|
    ensures '>' !in s[1..e]
  {
    var n := k - 3;
    forall m | 1 <= m < e
      ensures s[m] != '>'
    {
      if 3 <= m < k {
        assert s[m] == s[3..][..n][m - 3];
        SpaceIsNotGt(s[m]);
      }
    }
  }

  lemma {:induction false} SpaceIsNotGt(c: char)
    requires IsSpace(c)
    ensures c != '>'
  {
  }

  /** `html.replace(/<br\s*\/?>/gi, '\n')`. */
  function ReplaceBr(s: string): (r: string)
    ensures '<' !in s ==> r == s
    decreases |s|
  {
    if s == [] then []
    else
      var n := BrTagLength(s);
      if n > 0 then "\n" + ReplaceBr(s[n..])
      else
        var tail := ReplaceBr(s[1..]);
        assert '<' !in s ==> s == [s[0]] + s[1..];
        [s[0]] + tail
  }

  /** `ReplaceBr` adds no character but the newline. */
  lemma {:induction false} ReplaceBrAvoids(s: string, c: char)
    requires c != '\n' && c !in s
    ensures c !in ReplaceBr(s)
    decreases |s|
  {
    if s != [] {
      var n := BrTagLength(s);
      SuffixChars(s, if n > 0 then n else 1);
      ReplaceBrAvoids(s[if n > 0 then n else 1..], c);
    }
  }

  /** A `<br>` tag in a form `<br\s*\/?>` matches: either letter case, white space, a slash. */
  function BrTag(b: char, r: char, ws: string, slash: bool): string
  {
    "<" + [b, r] + ws + (if slash then "/" else "") + ">"
  }

  lemma {:induction false} LeadingSpacesBefore(ws: string, x: string)
    requires AllSpace(ws)
    requires x != [] && !IsSpace(x[0])
    ensures LeadingSpaces(ws + x) == |ws|
    decreases |ws|
  {
    if ws == [] {
      assert ws + x == x;
    } else {
      assert (ws + x)[0] == ws[0] && (ws + x)[1..] == ws[1..] + x;
      LeadingSpacesBefore(ws[1..], x);
    }
  }

  /** The pattern matches every form `BrTag` writes, to its closing `>`. */
  lemma {:induction false} BrTagMatched(b: char, r: char, ws: string, slash: bool, rest: string)
    requires b == 'b' || b == 'B'
    requires r == 'r' || r == 'R'
    requires AllSpace(ws)
    ensures BrTagLength(BrTag(b, r, ws, slash) + rest) == |BrTag(b, r, ws, slash)|
  {
    var sl := if slash then "/" else "";
    var s := BrTag(b, r, ws, slash) + rest;
    assert s == "<" + [b, r] + ws + sl + ">" + rest;
    assert s[0] == '<' && s[1] == b && s[2] == r;
    assert s[3..] == ws + (sl + ">" + rest);
    assert !IsSpace((sl + ">" + rest)[0]);
    LeadingSpacesBefore(ws, sl + ">" + rest);
    assert s[3 + |ws|..] == sl + ">" + rest;
  }

  /** `zen-editor.js` reads every `<br>` form back as one newline. */
  lemma {:induction false} ReplaceBrAnyForm(b: char, r: char, ws: string, slash: bool, rest: string)
    requires b == 'b' || b == 'B'
    requires r == 'r' || r == 'R'
    requires AllSpace(ws)
    ensures ReplaceBr(BrTag(b, r, ws, slash) + rest) == "\n" + ReplaceBr(rest)
  {
    var tag := BrTag(b, r, ws, slash);
    BrTagMatched(b, r, ws, slash, rest);
    assert (tag + rest)[|tag|..] == rest;
  }

  /** HTML to plain text, as the `.js` editor reads its region on input:
      `<br>` tags become newlines, then every other tag is stripped. */
  function HtmlToText(html: string): (text: string)
    ensures '<' !in html ==> text == html
    ensures NoTag(text)
  {
    StripTagsLeavesNoTag(ReplaceBr(html));
    StripTags(ReplaceBr(html))
  }

  lemma {:induction false} ReplaceBrPlain(a: string, b: string)
    requires '<' !in a
    ensures ReplaceBr(a + b) == a + ReplaceBr(b)
    decreases |a|
  {
    if a != [] {
      NotInTail(a, '<');
      ReplaceBrPlain(a[1..], b);
      ReplaceBrPlainStep(a, b);
    } else {
      assert a + b == b;
    }
  }

  lemma {:induction false} ReplaceBrPlainStep(a: string, b: string)
    requires a != [] && a[0] != '<'
    requires ReplaceBr(a[1..] + b) == a[1..] + ReplaceBr(b)
    ensures ReplaceBr(a + b) == a + ReplaceBr(b)
  {
    HeadSplit(a, b, ReplaceBr(b));
    ReplaceBrCons(a[0], a[1..] + b);
  }

  lemma {:induction false} ReplaceBrCons(c: char, s: string)
    requires c != '<'
    ensures ReplaceBr([c] + s) == [c] + ReplaceBr(s)
  {
    NotBrTag([c] + s);
    assert ([c] + s)[1..] == s;
  }

  /** Text before a `<br>` is kept and the tag read as a newline. */
  lemma {:induction false} ReplaceBrBetween(a: string, rest: string)
    requires '<' !in a
    ensures ReplaceBr(a + "<br>" + rest) == a + "\n" + ReplaceBr(rest)
  {
    assert a + "<br>" + rest == a + ("<br>" + rest);
    ReplaceBrPlain(a, "<br>" + rest);
    ReplaceBrTag(rest);
    assert a + ("\n" + ReplaceBr(rest)) == a + "\n" + ReplaceBr(rest);
  }

  lemma {:induction false} NotBrTag(s: string)
    requires |s| < 3 || s[0] != '<' || (s[1] != 'b' && s[1] != 'B') || (s[2] != 'r' && s[2] != 'R')
    ensures BrTagLength(s) == 0
  {
  }

  lemma {:induction false} ReplaceBrNoTag(s: string)
    requires s != [] && BrTagLength(s) == 0
    ensures ReplaceBr(s) == [s[0]] + ReplaceBr(s[1..])
  {
  }

  /** Reading text back keeps text before the first `<` as it stands. */
  lemma {:induction false} HtmlToTextPlain(a: string, rest: string)
    requires '<' !in a
    ensures HtmlToText(a + rest) == a + HtmlToText(rest)
  {
    ReplaceBrPlain(a, rest);
    StripTagsPlainPrefix(a, ReplaceBr(rest));
  }

  /** Reading text back turns every `<br>` form into one newline. */
  lemma {:induction false} HtmlToTextBr(b: char, r: char, ws: string, slash: bool, rest: string)
    requires b == 'b' || b == 'B'
    requires r == 'r' || r == 'R'
    requires AllSpace(ws)
    ensures HtmlToText(BrTag(b, r, ws, slash) + rest) == "\n" + HtmlToText(rest)
  {
    ReplaceBrAnyForm(b, r, ws, slash, rest);
    StripTagsPlainPrefix("\n", ReplaceBr(rest));
  }

  /** `ReplaceBr` passes every tag that is not a whole `<br>` form through unchanged. */
  lemma {:induction false} ReplaceBrOtherTag(t: string, rest: string)
    requires '<' !in t && '>' !in t
    requires !IsBrTag("<" + t + ">")
    ensures ReplaceBr("<" + (t + ">" + rest)) == "<" + t + ">" + ReplaceBr(rest)
  {
    OtherTagNotBr(t, rest);
    TagPieces(t, rest, ReplaceBr(rest));
    ReplaceBrNoTag("<" + (t + ">" + rest));
    ReplaceBrPlain(t + ">", rest);
  }

  /** How a tag `<t>` in front of `x` splits into its first character and the rest. */
  lemma {:induction false} TagPieces(t: string, x: string, y: string)
    requires '<' !in t
    ensures ("<" + (t + ">" + x))[0] == '<' && ("<" + (t + ">" + x))[1..] == t + ">" + x
    ensures '<' !in t + ">"
    ensures "<" + (t + ">" + y) == "<" + t + ">" + y
  {
    var s := "<" + (t + ">" + x);
    assert s[1..] == t + ">" + x;
    assert "<" + (t + ">" + y) == "<" + t + ">" + y;
  }

  /** The `<br>` pattern cannot match past the first `>`, so only the whole tag `<t>` could be a
      match, and that tag is not a `<br>` form. */
  lemma {:induction false} OtherTagNotBr(t: string, rest: string)
    requires '>' !in t && !IsBrTag("<" + t + ">")
    ensures BrTagLength("<" + (t + ">" + rest)) == 0
  {
    BrTagStopsAtGt(t, rest);
  }

  /** A `<br>` match in front of `<t>` with no `>` in `t` ends at the tag's own `>`. */
  lemma {:induction false} BrTagStopsAtGt(t: string, rest: string)
    requires '>' !in t
    ensures var s := "<" + (t + ">" + rest);
      BrTagLength(s) > 0 ==> BrTagLength(s) == |t| + 2 && s[..|t| + 2] == "<" + t + ">"
  {
    var s := "<" + (t + ">" + rest);
    assert s[1..|t| + 1] == t;
    assert s[|t| + 1] == '>';
    assert s[..|t| + 2] == "<" + t + ">";
  }

  /** A tag whose name does not start with `br` is no `<br>` form. */
  lemma {:induction false} OtherNameNotBr(t: string)
    requires |t| < 2 || (t[0] != 'b' && t[0] != 'B') || (t[1] != 'r' && t[1] != 'R')
    ensures !IsBrTag("<" + t + ">")
  {
    var u := "<" + t + ">";
    if |t| >= 2 {
      assert u[1] == t[0] && u[2] == t[1];
    }
  }

  /** Tags that open with `br` but are not a whole `<br>` form: attributes, a longer name, a space
      after the slash. `<BR />` is one. */
  lemma BrLookalikes()
    ensures !IsBrTag("<br class=\"x\">") && !IsBrTag("<brand>") && !IsBrTag("<br/ >")
    ensures IsBrTag("<BR />")
  {
    NotSpaceLetters();
    var a := "<br class=\"x\">";
    assert a[3..|a| - 1][1] == 'c' && a[|a| - 2] == '"';
    var b := "<brand>";
    assert b[3..|b| - 1][0] == 'a' && b[|b| - 2] == 'd';
    var c := "<br/ >";
    assert c[3..|c| - 1][0] == '/' && c[|c| - 2] == ' ';
    var d := "<BR />";
    assert d[3..|d| - 2] == " " && IsSpace(' ');
  }

  /** Reading text back drops every tag that is not a whole `<br>` form. */
  lemma {:induction false} HtmlToTextOtherTag(t: string, rest: string)
    requires '<' !in t && '>' !in t
    requires !IsBrTag("<" + t + ">")
    ensures HtmlToText("<" + t + ">" + rest) == HtmlToText(rest)
  {
    var x := "<" + t + ">" + rest;
    assert x == "<" + (t + ">" + rest);
    ReplaceBrOtherTag(t, rest);
    var y := ReplaceBr(rest);
    assert ReplaceBr(x) == "<" + t + ">" + y;
    StripTagsDropsTag(t, y);
    assert HtmlToText(x) == StripTags(ReplaceBr(x));
  }

  /** Html with no `>` holds no tag, so reading it back changes nothing: a `<` with no `>` after
      it is kept as text. */
  lemma {:induction false} HtmlToTextNoGt(html: string)
    requires '>' !in html
    ensures HtmlToText(html) == html
  {
    ReplaceBrNoGt(html);
  }

  lemma {:induction false} ReplaceBrNoGt(s: string)
    requires '>' !in s
    ensures ReplaceBr(s) == s
    decreases |s|
  {
    if s != [] {
      SuffixChars(s, 1);
      ReplaceBrNoGt(s[1..]);
      ReplaceBrNoTag(s);
      assert s == [s[0]] + s[1..];
    }
  }

  /** A `<` inside a tag's text opens no tag of its own: in `<a<br>x` the `<br>` still becomes a
      newline, and the `<a` before it, with no `>` left after it, is kept as text. */
  lemma {:induction false} LtInsideTag(a: string, x: string)
    requires a != [] && a[0] != 'b' && a[0] != 'B'
    requires '<' !in a && '>' !in a && '<' !in x && '>' !in x
    ensures HtmlToText("<" + a + "<br>" + x) == "<" + a + "\n" + x
  {
    var s := "<" + (a + "<br>" + x);
    LtInsidePieces(a, x);
    NotBrTag(s);
    ReplaceBrNoTag(s);
    ReplaceBrBetween(a, x);
    HtmlToTextNoGt("<" + a + "\n" + x);
    assert HtmlToText(s) == StripTags(ReplaceBr(s));
  }

  lemma {:induction false} LtInsidePieces(a: string, x: string)
    requires a != [] && '>' !in a && '>' !in x
    ensures var s := "<" + (a + "<br>" + x);
      s == "<" + a + "<br>" + x && s[0] == '<' && s[1] == a[0] && s[1..] == a + "<br>" + x
    ensures "<" + (a + "\n" + x) == "<" + a + "\n" + x && '>' !in "<" + a + "\n" + x
  {
    var s := "<" + (a + "<br>" + x);
    assert s[1..] == a + "<br>" + x;
    assert "<" + (a + "\n" + x) == "<" + a + "\n" + x;
  }

  lemma {:induction false} ReplaceBrTag(b: string)
    ensures ReplaceBr("<br>" + b) == "\n" + ReplaceBr(b)
  {
    var s := "<br>" + b;
    assert s[3..][0] == '>';
    assert BrTagLength(s) == 4;
    assert s[4..] == b;
  }

  /** A line as the `.js` editor reads it back: a marked empty line comes back as a newline. */
  function BlankAsNewline(lines: seq<string>): seq<string>
  {
    seq(|lines|, k requires 0 <= k < |lines| => if lines[k] == [] then "\n" else lines[k])
  }

  lemma {:induction false} ReplaceBrMarkedHead(line: string, rest: string)
    requires '<' !in line
    ensures ReplaceBr((if line == [] then "<br>" else line) + "<br>" + rest)
         == (if line == [] then "\n" else line) + "\n" + ReplaceBr(rest)
  {
    if line == [] {
      assert "<br>" + "<br>" + rest == "<br>" + ("<br>" + rest);
      ReplaceBrTag("<br>" + rest);
    } else {
      assert line + "<br>" + rest == line + ("<br>" + rest);
      ReplaceBrPlain(line, "<br>" + rest);
    }
    ReplaceBrTag(rest);
  }

  lemma {:induction false} ReplaceBrMarked(lines: seq<string>)
    requires forall k :: 0 <= k < |lines| ==> '<' !in lines[k]
    ensures ReplaceBr(Join(MarkEmptyLines(lines), "<br>")) == Join(BlankAsNewline(lines), "\n")
    decreases |lines|
  {
    var m, b := MarkEmptyLines(lines), BlankAsNewline(lines);
    if |lines| == 1 {
      if lines[0] == [] {
        assert "<br>" == "<br>" + [];
        ReplaceBrTag([]);
      } else {
        ReplaceBrPlain(lines[0], []);
        assert lines[0] + [] == lines[0];
      }
    } else if |lines| > 1 {
      assert m[1..] == MarkEmptyLines(lines[1..]);
      assert b[1..] == BlankAsNewline(lines[1..]);
      ReplaceBrMarked(lines[1..]);
      ReplaceBrMarkedHead(lines[0], Join(m[1..], "<br>"));
    }
  }

  /** What the `.js` editor's round trip does to `<`-free text: every line comes back, and every
      empty line comes back as one newline more than it had. */
  lemma {:induction false} AsWrittenRoundTrip(content: string)
    requires '<' !in content
    ensures HtmlToText(TextToHtml(content)) == Join(BlankAsNewline(SplitOn(content, '\n')), "\n")
  {
    var lines := SplitOn(content, '\n');
    ReplaceBrMarked(lines);
    JoinAvoids(BlankAsNewline(lines), "\n", '<');
  }

  /** Text without `<` and without an empty line survives the `.js` editor's round trip. */
  lemma {:induction false} RoundTripWithoutBlankLines(content: string)
    requires '<' !in content
    requires forall k :: 0 <= k < |SplitOn(content, '\n')| ==> SplitOn(content, '\n')[k] != []
    ensures HtmlToText(TextToHtml(content)) == content
  {
    var lines := SplitOn(content, '\n');
    AsWrittenRoundTrip(content);
    assert BlankAsNewline(lines) == lines;
  }

  lemma SplitExample()
    ensures SplitOn("a\n\nb", '\n') == ["a", [], "b"]
  {
    SplitExamplePieces();
    SplitOnLead("a", '\n', "\nb");
    SplitOnLead([], '\n', "b");
    assert SplitOn("b", '\n') == ["b"];
  }

  lemma SplitExamplePieces()
    ensures "a" + ['\n'] + "\nb" == "a\n\nb"
    ensures [] + ['\n'] + "b" == "\nb"
    ensures ["a"] + ([[]] + ["b"]) == ["a", [], "b"]
  {
    assert "a" + ['\n'] + "\nb" == "a\n\nb";
    assert [] + ['\n'] + "b" == "\nb";
  }

  lemma JoinExample()
    ensures Join(BlankAsNewline(["a", [], "b"]), "\n") == "a\n\n\nb"
  {
    var b := BlankAsNewline(["a", [], "b"]);
    assert b == ["a", "\n", "b"];
    assert b[1..] == ["\n", "b"] && b[1..][1..] == ["b"];
  }

  /** One blank line between two lines comes back as two blank lines. */
  lemma BlankLineGainsNewline()
    ensures HtmlToText(TextToHtml("a\n\nb")) == "a\n\n\nb"
  {
    SplitExample();
    AsWrittenRoundTrip("a\n\nb");
    JoinExample();
  }

  /** Plain text to HTML with blank lines left as they are: lines joined with `<br>`. */
  function TextToHtmlKeepingBlankLines(content: string): (html: string)
    ensures '\n' !in content ==> html == content
    ensures (forall k :: 0 <= k < |SplitOn(content, '\n')| ==> SplitOn(content, '\n')[k] != [])
      ==> html == TextToHtml(content)
  {
    MarkNoBlank(SplitOn(content, '\n'));
    Join(SplitOn(content, '\n'), "<br>")
  }

  lemma {:induction false} ReplaceBrJoin(lines: seq<string>)
    requires forall k :: 0 <= k < |lines| ==> '<' !in lines[k]
    ensures ReplaceBr(Join(lines, "<br>")) == Join(lines, "\n")
    decreases |lines|
  {
    if |lines| == 1 {
      ReplaceBrPlain(lines[0], []);
      assert lines[0] + [] == lines[0];
    } else if |lines| > 1 {
      var rest := Join(lines[1..], "<br>");
      assert Join(lines, "<br>") == lines[0] + "<br>" + rest;
      ReplaceBrBetween(lines[0], rest);
      ReplaceBrJoin(lines[1..]);
      assert Join(lines, "\n") == lines[0] + "\n" + Join(lines[1..], "\n");
    }
  }

  /** With blank lines kept, every `<`-free text survives the round trip. */
  lemma {:induction false} RoundTripKeepingBlankLines(content: string)
    requires '<' !in content
    ensures HtmlToText(TextToHtmlKeepingBlankLines(content)) == content
  {
    var lines := SplitOn(content, '\n');
    ReplaceBrJoin(lines);
    JoinAvoids(lines, "\n", '<');
  }

  /** The HTML parser's input preprocessing, applied when `innerHTML` is assigned: a CR LF pair
      and a lone CR both become one LF. */
  function NormalizeNewlines(s: string): (r: string)
    ensures '\r' !in r
    ensures '\r' !in s ==> r == s
    decreases |s|
  {
    if s == [] then []
    else if s[0] == '\r' then
      "\n" + NormalizeNewlines(if |s| >= 2 && s[1] == '\n' then s[2..] else s[1..])
    else
      var tail := NormalizeNewlines(s[1..]);
      assert '\r' !in s ==> s == [s[0]] + s[1..];
      [s[0]] + tail
  }

  /** The tree builder ignores a NUL character in text, so it never reaches the region. */
  function DropNul(s: string): (r: string)
    ensures '\0' !in r
    ensures '\0' !in s ==> r == s
    decreases |s|
  {
    if s == [] then []
    else if s[0] == '\0' then DropNul(s[1..])
    else
      var tail := DropNul(s[1..]);
      assert '\0' !in s ==> s == [s[0]] + s[1..];
      [s[0]] + tail
  }

  /** `DropNul` adds no character. */
  lemma {:induction false} DropNulAvoids(s: string, c: char)
    requires c !in s
    ensures c !in DropNul(s)
    decreases |s|
  {
    if s != [] {
      SuffixChars(s, 1);
      DropNulAvoids(s[1..], c);
    }
  }

  /** `DropNul` keeps a NUL-free prefix and goes on after it. */
  lemma {:induction false} DropNulPlain(a: string, b: string)
    requires '\0' !in a
    ensures DropNul(a + b) == a + DropNul(b)
    decreases |a|
  {
    if a == [] {
      assert a + b == b;
    } else {
      NotInTail(a, '\0');
      DropNulPlain(a[1..], b);
      DropNulPlainStep(a, b);
    }
  }

  lemma {:induction false} DropNulPlainStep(a: string, b: string)
    requires a != [] && a[0] != '\0'
    requires DropNul(a[1..] + b) == a[1..] + DropNul(b)
    ensures DropNul(a + b) == a + DropNul(b)
  {
    HeadSplit(a, b, DropNul(b));
    DropNulCons(a[0], a[1..] + b);
  }

  lemma {:induction false} DropNulCons(c: char, s: string)
    ensures DropNul([c] + s) == (if c == '\0' then [] else [c]) + DropNul(s)
  {
    assert ([c] + s)[1..] == s;
  }

  /** The characters the serialiser writes as entity references inside text. */
  predicate Escaped(c: char)
  {
    c == '&' || c == '<' || c == '>' || c == '\U{00A0}'
  }

  /** Text the serialiser writes as it stands. */
  predicate Inert(s: string)
  {
    '&' !in s && '<' !in s && '>' !in s && '\U{00A0}' !in s
  }

  lemma {:induction false} InertTail(s: string)
    requires s != [] && Inert(s)
    ensures !Escaped(s[0]) && Inert(s[1..])
  {
    assert s == [s[0]] + s[1..];
  }

  /** The letters of the four entity references `Escape` writes. */
  const EntityChars: set<char> := {'&', ';', 'a', 'b', 'g', 'l', 'm', 'n', 'p', 's', 't'}

  /** How the serialiser writes one character of a text node. */
  function Escape(c: char): (e: string)
    ensures |e| >= 1
    ensures Escaped(c) <==> e != [c]
    ensures Escaped(c) ==> e[0] == '&' && e[|e| - 1] == ';' && forall ch :: ch in e ==> ch in EntityChars
    ensures c == '&' ==> e == "&amp;"
    ensures c == '<' ==> e == "&lt;"
    ensures c == '>' ==> e == "&gt;"
    ensures c == '\U{00A0}' ==> e == "&nbsp;"
  {
    if c == '&' then "&amp;"
    else if c == '<' then "&lt;"
    else if c == '>' then "&gt;"
    else if c == '\U{00A0}' then "&nbsp;"
    else [c]
  }

  /** `innerHTML` read back after the string was parsed into the region: a tag (a `<` with a later
      `>`, up to the first such `>`) is written as it stands, every other character as `Escape`
      writes it. */
  function Serialize(s: string): (r: string)
    decreases |s|
  {
    if s == [] then []
    else
      var n := TagLength(s);
      if n > 0 then s[..n] + Serialize(s[n..]) else Escape(s[0]) + Serialize(s[1..])
  }

  /** Length of the tag at the start of `s` (a `<` up to the first `>` after it), or 0. */
  function TagLength(s: string): (n: nat)
    ensures n == 0 || (2 <= n <= |s| && s[0] == '<' && s[n - 1] == '>')
  {
    if s != [] && s[0] == '<' && '>' in s[1..] then IndexOf(s[1..], '>') + 2 else 0
  }

  /** The serialiser adds no character but those of the entity references. */
  lemma {:induction false} SerializeAvoids(s: string, c: char)
    requires c !in s && c !in EntityChars
    ensures c !in Serialize(s)
    decreases |s|
  {
    if s != [] {
      var n := TagLength(s);
      if n > 0 {
        assert s == s[..n] + s[n..];
        SerializeAvoids(s[n..], c);
      } else {
        SuffixChars(s, 1);
        SerializeAvoids(s[1..], c);
      }
    }
  }

  lemma {:induction false} SerializePlain(a: string, b: string)
    requires Inert(a)
    ensures Serialize(a + b) == a + Serialize(b)
    decreases |a|
  {
    if a == [] {
      assert a + b == b;
    } else {
      InertTail(a);
      SerializePlain(a[1..], b);
      SerializePlainStep(a, b);
    }
  }

  lemma {:induction false} SerializePlainStep(a: string, b: string)
    requires a != [] && !Escaped(a[0])
    requires Serialize(a[1..] + b) == a[1..] + Serialize(b)
    ensures Serialize(a + b) == a + Serialize(b)
  {
    HeadSplit(a, b, Serialize(b));
    SerializeCons(a[0], a[1..] + b);
  }

  lemma {:induction false} SerializeCons(c: char, s: string)
    requires !Escaped(c)
    ensures Serialize([c] + s) == [c] + Serialize(s)
  {
    assert TagLength([c] + s) == 0;
    assert ([c] + s)[1..] == s;
  }

  lemma {:induction false} SerializeEscapes(c: char, s: string)
    requires c != '<'
    ensures Serialize([c] + s) == Escape(c) + Serialize(s)
  {
    assert TagLength([c] + s) == 0;
    assert ([c] + s)[1..] == s;
  }

  lemma {:induction false} SerializeBr(b: string)
    ensures Serialize("<br>" + b) == "<br>" + Serialize(b)
  {
    var s := "<br>" + b;
    assert s[1..] == "br" + ">" + b;
    IndexOfAfter("br", '>', b);
    assert TagLength(s) == 4;
    assert s[..4] == "<br>" && s[4..] == b;
  }

  /** The serialiser hands back `Inert` lines joined with `<br>` as they were written. */
  lemma {:induction false} SerializeJoin(lines: seq<string>)
    requires forall k :: 0 <= k < |lines| ==> Inert(lines[k])
    ensures Serialize(Join(lines, "<br>")) == Join(lines, "<br>")
    decreases |lines|
  {
    if |lines| == 1 {
      SerializePlain(lines[0], []);
      assert lines[0] + [] == lines[0];
    } else if |lines| > 1 {
      var rest := Join(lines[1..], "<br>");
      assert Join(lines, "<br>") == lines[0] + ("<br>" + rest);
      SerializePlain(lines[0], "<br>" + rest);
      SerializeBr(rest);
      SerializeJoin(lines[1..]);
    }
  }

  /** What the region holds when read: the written HTML as the browser parses it (newline
      normalisation, NUL characters dropped) and serialises it again. */
  function Reparse(html: string): (r: string)
    ensures '\r' !in r && '\0' !in r
  {
    ParsedAvoids(html);
    Serialize(DropNul(NormalizeNewlines(html)))
  }

  lemma {:induction false} ParsedAvoids(html: string)
    ensures '\r' !in Serialize(DropNul(NormalizeNewlines(html)))
    ensures '\0' !in Serialize(DropNul(NormalizeNewlines(html)))
  {
    var parsed := DropNul(NormalizeNewlines(html));
    DropNulAvoids(NormalizeNewlines(html), '\r');
    NotEntityChars();
    SerializeAvoids(parsed, '\r');
    SerializeAvoids(parsed, '\0');
  }

  lemma NotEntityChars()
    ensures '\r' !in EntityChars && '\0' !in EntityChars
  {
  }

  /** The text state after the editor writes `text` into its region and reads the region back
      on the next input event, with no edit in between. The `.js` copy converts on the way in and
      on the way out; the `.jsx` copy writes and reads the html as it stands. */
  function Reload(copy: Copy, text: string): (r: string)
    ensures '\r' !in r
    ensures copy == Js ==> NoTag(r)
  {
    match copy
    case Js =>
      var html := Reparse(TextToHtml(text));
      ReplaceBrAvoids(html, '\r');
      StripTagsLeavesNoTag(ReplaceBr(html));
      HtmlToText(html)
    case Jsx => Reparse(text)
  }

  /** `Inert` lines without a CR or NUL, joined with `<br>`, come back from the region as written. */
  lemma {:induction false} ReparseJoin(lines: seq<string>)
    requires forall k :: 0 <= k < |lines| ==> Inert(lines[k]) && '\r' !in lines[k] && '\0' !in lines[k]
    ensures Reparse(Join(lines, "<br>")) == Join(lines, "<br>")
  {
    JoinAvoids(lines, "<br>", '\r');
    JoinAvoids(lines, "<br>", '\0');
    SerializeJoin(lines);
  }

  lemma {:induction false} LinesOfPlainText(text: string)
    requires '<' !in text && '&' !in text && '>' !in text && '\U{00A0}' !in text
    requires '\r' !in text && '\0' !in text
    ensures forall k :: 0 <= k < |SplitOn(text, '\n')| ==>
      Inert(SplitOn(text, '\n')[k]) && '\r' !in SplitOn(text, '\n')[k] && '\0' !in SplitOn(text, '\n')[k]
  {
  }

  lemma {:induction false} MarkNoBlank(lines: seq<string>)
    ensures (forall k :: 0 <= k < |lines| ==> lines[k] != []) ==> MarkEmptyLines(lines) == lines
  {
  }

  /** The `.jsx` hand-off keeps every text. The `.js` one keeps text without blank lines that
      holds none of the characters the browser rewrites on the way: `<`, which starts a tag, the
      escaped `&`, `>` and no-break space, CR, which the parser turns into a newline, and NUL,
      which the parser drops. */
  lemma {:induction false} ReloadKeeps(copy: Copy, text: string)
    requires '<' !in text && '&' !in text && '>' !in text && '\U{00A0}' !in text
    requires '\r' !in text && '\0' !in text
    requires copy == Js ==> forall k :: 0 <= k < |SplitOn(text, '\n')| ==> SplitOn(text, '\n')[k] != []
    ensures Reload(copy, text) == text
  {
    if copy == Jsx {
      SerializePlain(text, []);
      assert text + [] == text;
    } else {
      var lines := SplitOn(text, '\n');
      MarkNoBlank(lines);
      assert TextToHtml(text) == Join(lines, "<br>");
      LinesOfPlainText(text);
      ReparseJoin(lines);
      RoundTripWithoutBlankLines(text);
    }
  }

  lemma SerializeAmpersandExample()
    ensures Serialize("a & b") == "a &amp; b"
  {
    AmpersandPieces();
    SerializePlain("a ", ['&'] + " b");
    SerializeEscapes('&', " b");
    SerializePlain(" b", []);
  }

  lemma AmpersandPieces()
    ensures "a & b" == "a " + (['&'] + " b")
    ensures Inert("a ") && Inert(" b") && " b" + [] == " b"
    ensures "a " + ("&amp;" + " b") == "a &amp; b"
  {
    assert "a & b" == "a " + (['&'] + " b");
    assert "a " + ("&amp;" + " b") == "a &amp; b";
  }

  /** A typed `&` comes back from the `.js` editor as the entity reference the serialiser writes. */
  lemma ReloadEscapesAmpersand()
    ensures Reload(Js, "a & b") == "a &amp; b"
  {
    var s := "a & b";
    assert '<' !in s && '\n' !in s && '\r' !in s;
    assert TextToHtml(s) == s;
    ReparseAmpersandExample();
    assert '<' !in "a &amp; b";
    ReloadThrough(s, s, "a &amp; b", "a &amp; b");
  }

  lemma ReparseAmpersandExample()
    ensures Reparse("a & b") == "a &amp; b"
  {
    var s := "a & b";
    assert '\r' !in s && '\0' !in s;
    SerializeAmpersandExample();
  }

  lemma {:induction false} NormalizePlain(a: string, b: string)
    requires '\r' !in a
    ensures NormalizeNewlines(a + b) == a + NormalizeNewlines(b)
    decreases |a|
  {
    if a == [] {
      assert a + b == b;
    } else {
      NotInTail(a, '\r');
      NormalizePlain(a[1..], b);
      NormalizePlainStep(a, b);
    }
  }

  lemma {:induction false} NormalizePlainStep(a: string, b: string)
    requires a != [] && a[0] != '\r'
    requires NormalizeNewlines(a[1..] + b) == a[1..] + NormalizeNewlines(b)
    ensures NormalizeNewlines(a + b) == a + NormalizeNewlines(b)
  {
    HeadSplit(a, b, NormalizeNewlines(b));
    NormalizeCons(a[0], a[1..] + b);
  }

  lemma {:induction false} NormalizeCons(c: char, s: string)
    requires c != '\r'
    ensures NormalizeNewlines([c] + s) == [c] + NormalizeNewlines(s)
  {
    assert ([c] + s)[1..] == s;
  }

  /** The lines of `a + "\r\n" + b` are `a + "\r"` and `b`. */
  lemma {:induction false} TextToHtmlCrLf(a: string, b: string)
    requires '\n' !in a && '\n' !in b && b != []
    ensures TextToHtml(a + "\r\n" + b) == a + "\r" + "<br>" + b
  {
    var first := a + "\r";
    CrLfLines(a, b);
    SplitOnLead(first, '\n', b);
    var lines := [first, b];
    MarkNoBlank(lines);
    assert lines[1..] == [b];
    assert Join(lines, "<br>") == first + "<br>" + Join([b], "<br>");
  }

  lemma {:induction false} CrLfLines(a: string, b: string)
    requires '\n' !in a && '\n' !in b
    ensures a + "\r\n" + b == (a + "\r") + ['\n'] + b
    ensures '\n' !in a + "\r"
    ensures [a + "\r"] + [b] == [a + "\r", b]
  {
    assert a + "\r\n" + b == (a + "\r") + ['\n'] + b;
  }

  /** A CR not followed by a newline becomes one. */
  lemma {:induction false} NormalizeLoneCr(b: string)
    requires b != [] && b[0] != '\n' && '\r' !in b
    ensures NormalizeNewlines("\r" + b) == "\n" + b
  {
    var t := "\r" + b;
    assert t[0] == '\r' && t[1] == b[0] && t[1..] == b;
  }

  lemma {:induction false} NormalizeCrBeforeTag(a: string, b: string)
    requires '\r' !in a && '\r' !in b
    ensures NormalizeNewlines(a + "\r" + "<br>" + b) == a + "\n" + "<br>" + b
  {
    CrPieces(a, b);
    NormalizePlain(a, "\r" + ("<br>" + b));
    NormalizeLoneCr("<br>" + b);
  }

  lemma {:induction false} CrPieces(a: string, b: string)
    requires '\r' !in b
    ensures a + "\r" + "<br>" + b == a + ("\r" + ("<br>" + b))
    ensures a + ("\n" + ("<br>" + b)) == a + "\n" + "<br>" + b
    ensures '\r' !in "<br>" + b && ("<br>" + b)[0] == '<'
  {
    assert a + "\r" + "<br>" + b == a + ("\r" + ("<br>" + b));
    assert a + ("\n" + ("<br>" + b)) == a + "\n" + "<br>" + b;
  }

  /** The parser turns the CR before a `<br>` into a newline of its own. */
  lemma {:induction false} ReparseCr(a: string, b: string)
    requires '\r' !in a && '\r' !in b && '\0' !in a && '\0' !in b && Inert(a) && Inert(b)
    ensures Reparse(a + "\r" + "<br>" + b) == a + "\n" + "<br>" + b
  {
    NormalizeCrBeforeTag(a, b);
    assert '\0' !in a + "\n" + "<br>" + b;
    var u := a + "\n";
    assert Inert(u);
    assert a + "\n" + "<br>" + b == u + ("<br>" + b);
    SerializePlain(u, "<br>" + b);
    SerializeBr(b);
    SerializePlain(b, []);
    assert b + [] == b;
  }

  lemma {:induction false} HtmlToTextBrBetween(a: string, b: string)
    requires '<' !in a && '<' !in b
    ensures HtmlToText(a + "<br>" + b) == a + "\n" + b
  {
    var html := a + "<br>" + b;
    ReplaceBrBetween(a, b);
    var x := a + "\n" + b;
    assert ReplaceBr(html) == x;
    assert '<' !in x;
    assert HtmlToText(html) == StripTags(x);
  }

  /** A CR LF line end comes back from the `.js` editor as two newlines: the parser turns the CR
      into a newline of its own, and the `<br>` after it is read back as another. */
  lemma {:induction false} ReloadCrLf(a: string, b: string)
    requires '\n' !in a && '\n' !in b && b != []
    requires '\r' !in a && '\r' !in b && '\0' !in a && '\0' !in b && Inert(a) && Inert(b)
    ensures Reload(Js, a + "\r\n" + b) == a + "\n\n" + b
  {
    TextToHtmlCrLf(a, b);
    ReparseCr(a, b);
    CrLfPieces(a, b);
    HtmlToTextBrBetween(a + "\n", b);
    ReloadThrough(a + "\r\n" + b, a + "\r" + "<br>" + b, a + "\n" + "<br>" + b, a + "\n\n" + b);
  }

  lemma {:induction false} CrLfPieces(a: string, b: string)
    requires '<' !in a
    ensures '<' !in a + "\n"
    ensures a + "\n" + "<br>" + b == (a + "\n") + "<br>" + b
    ensures (a + "\n") + "\n" + b == a + "\n\n" + b
  {
    assert (a + "\n") + "\n" + b == a + ("\n" + "\n") + b;
  }

  /** A NUL typed between two runs of plain text is gone when the region is read back. */
  lemma {:induction false} ReparseDropsNul(a: string, b: string)
    requires '\r' !in a && '\r' !in b && '\0' !in a && '\0' !in b && Inert(a) && Inert(b)
    ensures Reparse(a + "\0" + b) == a + b
  {
    NulPieces(a, b);
    NormalizePlain(a, "\0" + b);
    NormalizeCons('\0', b);
    DropNulPlain(a, "\0" + b);
    DropNulCons('\0', b);
    SerializePlain(a, b);
    SerializePlain(b, []);
  }

  lemma {:induction false} NulPieces(a: string, b: string)
    ensures a + "\0" + b == a + ("\0" + b) && "\0" + b == ['\0'] + b
    ensures [] + b == b && b + [] == b
  {
    assert a + "\0" + b == a + ("\0" + b);
  }

  /** Both editors lose a NUL on the round trip through the region. */
  lemma {:induction false} ReloadDropsNul(copy: Copy, a: string, b: string)
    requires '\r' !in a && '\r' !in b && '\0' !in a && '\0' !in b && Inert(a) && Inert(b)
    requires '\n' !in a && '\n' !in b
    ensures Reload(copy, a + "\0" + b) == a + b
  {
    ReparseDropsNul(a, b);
    if copy == Js {
      var text := a + "\0" + b;
      assert text[|a|] == '\0';
      assert '<' !in text && '\n' !in text;
      assert '<' !in a + b;
      ReloadThrough(text, text, a + b, a + b);
    }
  }

  /** The `.jsx` copy hands the serialiser's escaping back as the new content as well. */
  lemma ReloadJsxEscapesAmpersand()
    ensures Reload(Jsx, "a & b") == "a &amp; b"
  {
    ReparseAmpersandExample();
  }

  lemma {:induction false} ReloadJs(text: string)
    ensures Reload(Js, text) == HtmlToText(Reparse(TextToHtml(text)))
  {
  }

  /** `Reload` in the `.js` editor, one stage at a time. */
  lemma {:induction false} ReloadThrough(text: string, html: string, back: string, r: string)
    requires TextToHtml(text) == html && Reparse(html) == back && HtmlToText(back) == r
    ensures Reload(Js, text) == r
  {
    ReloadJs(text);
  }
}

=== FILE: equalizer.dfy ===
/** The five-band equalizer: its settings record, the named presets and single-band updates. */
module Equalizer {

  /** The five band keys of the settings object. */
  datatype Band = Low | MidLow | Mid | MidHigh | High

  /** Equalizer settings. The sliders range over 0..100, but nothing in the code clamps a value,
      so the bands are plain integers. */
  datatype Eq = Eq(low: int, midLow: int, mid: int, midHigh: int, high: int)

  /** The value of one band (`values[band.id]`). */
  function Get(eq: Eq, b: Band): int
  {
    match b
    case Low => eq.low
    case MidLow => eq.midLow
    case Mid => eq.mid
    case MidHigh => eq.midHigh
    case High => eq.high
  }

  /** The settings the editor starts with, which are also the `clear` preset. */
  const Flat := Eq(50, 50, 50, 50, 50)

  /** Preset lookup by name: `presets[value] || presets.clear`. */
  function Preset(name: string): (eq: Eq)
    ensures name == "nature" ==> eq == Eq(70, 60, 50, 40, 30)
    ensures name == "deep" ==> eq == Eq(100, 80, 40, 20, 10)
    ensures name != "nature" && name != "deep" ==> eq == Eq(50, 50, 50, 50, 50)
    ensures forall b :: 0 <= Get(eq, b) <= 100
  {
    if name == "nature" then Eq(70, 60, 50, 40, 30)
    else if name == "deep" then Eq(100, 80, 40, 20, 10)
    else Flat
  }

  /** `{...prev, [band]: value}`: one band replaced, the other four kept. */
  function SetBand(eq: Eq, b: Band, v: int): (r: Eq)
    ensures Get(r, b) == v
    ensures forall b' :: b' != b ==> Get(r, b') == Get(eq, b')
  {
    match b
    case Low => eq.(low := v)
    case MidLow => eq.(midLow := v)
    case Mid => eq.(mid := v)
    case MidHigh => eq.(midHigh := v)
    case High => eq.(high := v)
  }

  /** Two settings records are equal exactly when every band agrees. */
  lemma {:induction false} SameBandsSameEq(a: Eq, b: Eq)
    requires forall band :: Get(a, band) == Get(b, band)
    ensures a == b
  {
    assert Get(a, Low) == Get(b, Low);
    assert Get(a, MidLow) == Get(b, MidLow);
    assert Get(a, Mid) == Get(b, Mid);
    assert Get(a, MidHigh) == Get(b, MidHigh);
    assert Get(a, High) == Get(b, High);
  }

  /** Writing back a band's own value changes nothing; a second write to a band overrides the first. */
  lemma SetBandLaws(eq: Eq, b: Band, v: int, w: int)
    ensures SetBand(eq, b, Get(eq, b)) == eq
    ensures SetBand(SetBand(eq, b, v), b, w) == SetBand(eq, b, w)
  {
    SameBandsSameEq(SetBand(eq, b, Get(eq, b)), eq);
    SameBandsSameEq(SetBand(SetBand(eq, b, v), b, w), SetBand(eq, b, w));
  }

  /** What the equalizer panel sends: a slider move or a preset button. */
  datatype EqChange = SetBandTo(band: Band, value: int) | ApplyPreset(name: string)

  /** `handleEqualizerChange`. */
  function Apply(eq: Eq, ch: EqChange): (r: Eq)
    ensures ch.ApplyPreset? ==> r == Preset(ch.name)
    ensures ch.SetBandTo? ==> Get(r, ch.band) == ch.value
    ensures ch.SetBandTo? ==> forall b :: b != ch.band ==> Get(r, b) == Get(eq, b)
  {
    match ch
    case SetBandTo(b, v) => SetBand(eq, b, v)
    case ApplyPreset(name) => Preset(name)
  }

  /** A chain's gain `base * (band / 50)`: 50 is unity, 0 silences the chain, 100 doubles it. */
  function Scaled(base: real, v: int): (g: real)
    ensures v == 50 ==> g == base
    ensures v == 0 ==> g == 0.0
    ensures v == 100 ==> g == 2.0 * base
    ensures 0.0 <= base && 0 <= v ==> 0.0 <= g
    ensures 0.0 < base ==> (g < base <==> v < 50)
  {
    var g := base * (v as real / 50.0);
    assert g - base == base * ((v - 50) as real / 50.0);
    g
  }

  /** Raising a band never lowers a non-negative base gain. */
  lemma ScaledMonotonic(base: real, v: int, w: int)
    requires 0.0 <= base && v <= w
    ensures Scaled(base, v) <= Scaled(base, w)
  {
    assert Scaled(base, w) - Scaled(base, v) == base * ((w - v) as real / 50.0);
  }
}

=== FILE: notes.dfy ===
/** Pinned notes: pinning the current text, removing a note by id, and the per-note collapse flags. */
module Notes {
  import opened Text

  /** A pinned note; `id` is the `Date.now()` reading taken when it was pinned and `timestamp`
      the locale string of that moment, both supplied by the caller. */
  datatype Note = Note(id: int, title: string, content: string, timestamp: string)

  /** `text.split('\n')[0]`. */
  function FirstLine(text: string): (line: string)
    ensures line == SplitOn(text, '\n')[0]
    ensures line <= text && '\n' !in line
    ensures |line| < |text| ==> text[|line|] == '\n'
  {
    if '\n' in text then text[..IndexOf(text, '\n')] else text
  }

  /** The note title: the first line cut to 40 characters, or `Untitled Note` when that is empty. */
  function Title(text: string): (t: string)
    ensures t != [] && |t| <= 40 && '\n' !in t
    ensures text == [] || text[0] == '\n' ==> t == "Untitled Note"
    ensures text != [] && text[0] != '\n' ==> t <= text && (|t| == 40 || |t| == |text| || text[|t|] == '\n')
  {
    var line := FirstLine(text);
    var cut := if |line| <= 40 then line else line[..40];
    assert text != [] && text[0] != '\n' ==> line != [];
    if cut == [] then "Untitled Note" else cut
  }

  /** `handlePinNote`: white-space-only text pins nothing (the user is alerted); otherwise one note
      holding the text is appended after the existing ones. */
  function PinNote(notes: seq<Note>, text: string, now: int, stamp: string): (r: seq<Note>)
    ensures Trim(text) == [] ==> r == notes
    ensures Trim(text) != [] ==> |r| == |notes| + 1 && r[..|notes|] == notes
    ensures Trim(text) != [] ==> r[|notes|] == Note(now, Title(text), text, stamp)
  {
    if Trim(text) == [] then notes
    else notes + [Note(now, Title(text), text, stamp)]
  }

  /** `handleRemoveNote`: `notes.filter(note => note.id !== id)`. */
  function RemoveNote(notes: seq<Note>, id: int): (r: seq<Note>)
    ensures forall n :: n in r <==> n in notes && n.id != id
    ensures |r| <= |notes|
    ensures |r| == |notes| <==> forall k :: 0 <= k < |notes| ==> notes[k].id != id
  {
    if notes == [] then []
    else
      var rest := RemoveNote(notes[1..], id);
      assert forall n :: n in notes <==> n == notes[0] || n in notes[1..];
      assert (forall k :: 0 <= k < |notes| ==> notes[k].id != id)
         <==> notes[0].id != id && forall k :: 0 <= k < |notes[1..]| ==> notes[1..][k].id != id;
      (if notes[0].id == id then [] else [notes[0]]) + rest
  }

  /** Removal commutes with concatenation, so it keeps the surviving notes in their order. */
  lemma {:induction false} RemoveNoteConcat(a: seq<Note>, b: seq<Note>, id: int)
    ensures RemoveNote(a + b, id) == RemoveNote(a, id) + RemoveNote(b, id)
    decreases |a|
  {
    if a == [] {
      assert a + b == b;
    } else {
      RemoveNoteConcat(a[1..], b, id);
      RemoveNoteConcatStep(a, b, id);
    }
  }

  lemma {:induction false} RemoveNoteConcatStep(a: seq<Note>, b: seq<Note>, id: int)
    requires a != []
    requires RemoveNote(a[1..] + b, id) == RemoveNote(a[1..], id) + RemoveNote(b, id)
    ensures RemoveNote(a + b, id) == RemoveNote(a, id) + RemoveNote(b, id)
  {
    HeadSplit(a, b, []);
    RemoveNoteCons(a[0], a[1..] + b, id);
    RemoveNoteCons(a[0], a[1..], id);
    ConcatAssoc(if a[0].id == id then [] else [a[0]], RemoveNote(a[1..], id), RemoveNote(b, id));
  }

  lemma {:induction false} RemoveNoteCons(n: Note, rest: seq<Note>, id: int)
    ensures RemoveNote([n] + rest, id) == (if n.id == id then [] else [n]) + RemoveNote(rest, id)
  {
    assert ([n] + rest)[1..] == rest;
  }

  /** Removing an id twice is removing it once. */
  lemma {:induction false} RemoveNoteTwice(notes: seq<Note>, id: int)
    ensures RemoveNote(RemoveNote(notes, id), id) == RemoveNote(notes, id)
    decreases |notes|
  {
    if notes != [] {
      RemoveNoteTwice(notes[1..], id);
      var head := if notes[0].id == id then [] else [notes[0]];
      RemoveNoteConcat(head, RemoveNote(notes[1..], id), id);
      if notes[0].id != id {
        assert RemoveNote(head, id) == [notes[0]] + RemoveNote(head[1..], id);
      }
    }
  }

  /** Removing an id no note carries leaves the list as it was. */
  lemma {:induction false} RemoveAbsent(notes: seq<Note>, id: int)
    requires forall k :: 0 <= k < |notes| ==> notes[k].id != id
    ensures RemoveNote(notes, id) == notes
    decreases |notes|
  {
    if notes != [] {
      RemoveAbsent(notes[1..], id);
      assert notes == [notes[0]] + notes[1..];
    }
  }

  /** Pinning and then removing the new note's id gives back the list, provided no earlier note
      had been given the same `Date.now()` id. */
  lemma {:induction false} PinThenRemove(notes: seq<Note>, text: string, now: int, stamp: string)
    requires forall k :: 0 <= k < |notes| ==> notes[k].id != now
    ensures RemoveNote(PinNote(notes, text, now, stamp), now) == notes
  {
    RemoveAbsent(notes, now);
    if Trim(text) != [] {
      RemoveAppended(notes, Note(now, Title(text), text, stamp));
    }
  }

  lemma {:induction false} RemoveAppended(notes: seq<Note>, n: Note)
    requires forall k :: 0 <= k < |notes| ==> notes[k].id != n.id
    ensures RemoveNote(notes + [n], n.id) == notes
  {
    RemoveAbsent(notes, n.id);
    RemoveNoteConcat(notes, [n], n.id);
    assert RemoveNote([n], n.id) == [];
  }

  /** A note's collapse flag: `!!collapsedNotes[id]`, an absent key reading as not collapsed. */
  predicate IsCollapsed(flags: map<int, bool>, id: int)
  {
    id in flags && flags[id]
  }

  /** `toggleNoteCollapse`: `{...prev, [id]: !prev[id]}`. */
  function ToggleCollapse(flags: map<int, bool>, id: int): (r: map<int, bool>)
    ensures r.Keys == flags.Keys + {id}
    ensures IsCollapsed(r, id) == !IsCollapsed(flags, id)
    ensures forall k :: k in flags && k != id ==> r[k] == flags[k]
  {
    flags[id := !IsCollapsed(flags, id)]
  }

  /** Toggling the same note twice restores every note's collapse state. */
  lemma ToggleTwice(flags: map<int, bool>, id: int, other: int)
    ensures IsCollapsed(ToggleCollapse(ToggleCollapse(flags, id), id), other) == IsCollapsed(flags, other)
  {
  }
}

=== FILE: playback.dfy ===
/** The playback controller of `ZenTextEditor`: its audio state, the effects React runs when that
    state changes (play, volume, unmount), the settling of `resume()` promises and the firing of
    interval timers, as pure transitions over one state record. */
module Playback {
  import opened Common
  import opened Equalizer
  import opened SceneGraph
  import opened Teardown
  import opened Transients

  /** The shared `AudioContext`: not yet created, or in one of its three states. */
  datatype CtxState = NoContext | Running | Suspended | Closed

  /** The state the browser gives a newly created context (suspended under an autoplay policy). */
  type FreshState = c: CtxState | c == Running || c == Suspended witness Running

  /** `getAudioContext`: the context is created on the first call and returned ever after, closed or not. */
  function GetAudioContext(ctx: CtxState, initial: FreshState): (c: CtxState)
    ensures c != NoContext
    ensures ctx != NoContext ==> c == ctx
    ensures ctx == NoContext ==> c == initial
  {
    if ctx == NoContext then initial else ctx
  }

  /** Calling `getAudioContext` again returns what the first call returned, whatever a second
      creation would have produced. */
  lemma GetAudioContextStable(ctx: CtxState, f1: FreshState, f2: FreshState)
    ensures GetAudioContext(GetAudioContext(ctx, f1), f2) == GetAudioContext(ctx, f1)
  {
  }

  /** A build that waits for a `resume()` promise, with the scene id and settings its callbacks captured. */
  datatype Request = Request(scene: string, eq: Eq)

  /** An unsettled `resume()` promise, and the build its callbacks run when it settles, if any. */
  datatype Pending = Pending(build: Option<Request>)

  /** The controller's state.
      - `handle`: what `audioRef.current` refers to, as an index into `graphs`;
      - `graphs`: every graph built so far, in build order, with the current state of its nodes;
      - `pending`: unsettled `resume()` promises, oldest first. */
  datatype State = State(
    mounted: bool,
    isPlaying: bool,
    scene: string,
    eq: Eq,
    volume: real,
    ctx: CtxState,
    handle: Option<nat>,
    graphs: seq<Graph>,
    pending: seq<Pending>)

  /** The state after the first render: paused on the first scene, flat settings, volume 0.5, and
      no context yet (the mount-time play effect does nothing while paused). */
  const Init := State(true, false, Scenes[0].id, Flat, 0.5, NoContext, None, [], [])

  /** Inputs to the controller. UI events carry the `Math.random()` draw a build would use;
      `ResumeSettled` settles the oldest `resume()` promise; `TimerFired` fires the interval held
      at `entry` of graph `serial`, at context time `now`. */
  datatype Event =
    | SetPlaying(on: bool, r: Rand)
    | SelectScene(id: string, r: Rand)
    | ChangeEq(change: EqChange, r: Rand)
    | SetVolume(v: real)
    | ResumeSettled(ok: bool, r: Rand)
    | TimerFired(serial: nat, entry: nat, now: real, r1: Rand, r2: Rand)
    | Unmount

  /** The first half of the play effect: tear down the graph the handle refers to and drop the handle. */
  function ReleaseHandle(s: State): (t: State)
    ensures t.handle == None
    ensures t == s.(handle := None, graphs := t.graphs)
    ensures |t.graphs| == |s.graphs|
    ensures s.handle.Some? && s.handle.value < |s.graphs| ==> t.graphs[s.handle.value] == TeardownGraph(s.graphs[s.handle.value])
    ensures forall i :: 0 <= i < |s.graphs| && s.handle != Some(i) ==> t.graphs[i] == s.graphs[i]
  {
    match s.handle
    case None => s
    case Some(h) =>
      if h < |s.graphs| then s.(handle := None, graphs := s.graphs[h := TeardownGraph(s.graphs[h])])
      else s.(handle := None)
  }

  /** `audioRef.current = createNatureSound(...)`: the new graph becomes the handle, replacing the
      reference without tearing down what it referred to. */
  function Install(s: State, g: Graph): (t: State)
    ensures t.graphs == s.graphs + [g] && t.handle == Some(|s.graphs|)
    ensures t == s.(graphs := t.graphs, handle := t.handle)
  {
    s.(graphs := s.graphs + [g], handle := Some(|s.graphs|))
  }

  /** The play effect, run after a change of the play flag, the scene id or the settings object.
      The previous graph is always torn down first. When playing, `zen-editor.jsx` fires `resume()`
      on a suspended context and builds at once; `zen-editor.js` builds at once only on a context
      that is not suspended and otherwise leaves the build to the `resume()` callbacks. */
  function PlayEffect(copy: Copy, initial: FreshState, s: State, r: Rand): (t: State)
    ensures |s.graphs| <= |t.graphs| <= |s.graphs| + 1
    ensures s.handle.Some? && s.handle.value < |s.graphs| ==> t.graphs[s.handle.value] == TeardownGraph(s.graphs[s.handle.value])
    ensures forall i :: 0 <= i < |s.graphs| && s.handle != Some(i) ==> t.graphs[i] == s.graphs[i]
    ensures t.mounted == s.mounted && t.isPlaying == s.isPlaying && t.scene == s.scene && t.eq == s.eq && t.volume == s.volume
    ensures t.ctx == (if s.isPlaying then GetAudioContext(s.ctx, initial) else s.ctx)
    ensures !s.isPlaying ==> t.handle == None && |t.graphs| == |s.graphs| && t.pending == s.pending
    ensures s.isPlaying && (copy == Jsx || t.ctx != Suspended) ==>
      t.handle == Some(|s.graphs|) && |t.graphs| == |s.graphs| + 1 && t.graphs[|s.graphs|] == Build(s.scene, s.eq, r)
    ensures s.isPlaying && copy == Jsx ==> t.pending == s.pending + (if t.ctx == Suspended then [Pending(None)] else [])
    ensures s.isPlaying && copy == Js && t.ctx != Suspended ==> t.pending == s.pending
    ensures s.isPlaying && copy == Js && t.ctx == Suspended ==>
      t.handle == None && |t.graphs| == |s.graphs| && t.pending == s.pending + [Pending(Some(Request(s.scene, s.eq)))]
  {
    var s1 := ReleaseHandle(s);
    if !s1.isPlaying then s1
    else
      var ctx := GetAudioContext(s1.ctx, initial);
      var s2 := s1.(ctx := ctx);
      if ctx != Suspended then Install(s2, Build(s.scene, s.eq, r))
      else match copy
        case Jsx => Install(s2.(pending := s2.pending + [Pending(None)]), Build(s.scene, s.eq, r))
        case Js => s2.(pending := s2.pending + [Pending(Some(Request(s.scene, s.eq)))])
  }

  /** The volume effect: with a handle, the master gain is set to `volume * 0.3`; nothing is built,
      torn down or dropped, and without a handle nothing happens. */
  function VolumeEffect(s: State): (t: State)
    ensures t.handle == s.handle && |t.graphs| == |s.graphs|
    ensures forall i :: 0 <= i < |s.graphs| ==> t.graphs[i] == s.graphs[i].(master := t.graphs[i].master)
    ensures s.handle.Some? && s.handle.value < |s.graphs| ==> t.graphs[s.handle.value].master == Some(s.volume * 0.3)
    ensures forall i :: 0 <= i < |s.graphs| && s.handle != Some(i) ==> t.graphs[i] == s.graphs[i]
    ensures t == s.(graphs := t.graphs)
  {
    match s.handle
    case None => s
    case Some(h) =>
      if h < |s.graphs| then s.(graphs := s.graphs[h := s.graphs[h].(master := Some(s.volume * 0.3))])
      else s
  }

  /** The oldest `resume()` promise settles. Success makes a suspended context run; resuming a
      closed context fails. A build captured by the `.js` callbacks runs on either outcome and is
      installed over whatever the handle refers to, without tearing it down. */
  function Settle(s: State, ok: bool, r: Rand): (t: State)
    ensures s.pending == [] ==> t == s
    ensures s.pending != [] ==> t.pending == s.pending[1..]
    ensures s.pending != [] ==> t.ctx == (if ok && s.ctx == Suspended then Running else s.ctx)
    ensures s.pending != [] && s.pending[0].build.None? ==> t.graphs == s.graphs && t.handle == s.handle
    ensures s.pending != [] && s.pending[0].build.Some? ==>
      t.handle == Some(|s.graphs|) && t.graphs == s.graphs + [Build(s.pending[0].build.value.scene, s.pending[0].build.value.eq, r)]
    ensures t.mounted == s.mounted && t.isPlaying == s.isPlaying
    ensures t == s.(pending := t.pending, ctx := t.ctx, graphs := t.graphs, handle := t.handle)
  {
    if s.pending == [] then s
    else
      var s1 := s.(pending := s.pending[1..], ctx := if ok && s.ctx == Suspended then Running else s.ctx);
      match s.pending[0].build
      case None => s1
      case Some(req) => Install(s1, Build(req.scene, req.eq, r))
  }

  /** Unmount: the handle's graph is torn down (the reference itself is left in place), then the
      context is fetched, which creates one if none exists, and closed unless already closed. */
  function UnmountEffect(initial: FreshState, s: State): (t: State)
    ensures !t.mounted && t.ctx == Closed
    ensures t == s.(mounted := false, ctx := Closed, graphs := t.graphs)
    ensures t.handle == s.handle && |t.graphs| == |s.graphs|
    ensures s.handle.Some? && s.handle.value < |s.graphs| ==> t.graphs[s.handle.value] == TeardownGraph(s.graphs[s.handle.value])
    ensures forall i :: 0 <= i < |s.graphs| && s.handle != Some(i) ==> t.graphs[i] == s.graphs[i]
  {
    var s1 := ReleaseHandle(s).(handle := s.handle);
    var ctx := GetAudioContext(s1.ctx, initial);
    s1.(mounted := false, ctx := if ctx != Closed then Closed else ctx)
  }

  /** A timer firing on graph `serial`, which may or may not be the one the handle refers to. */
  function TimerEffect(s: State, serial: nat, k: nat, now: real, r1: Rand, r2: Rand): (t: State)
    ensures t == s.(graphs := t.graphs) && |t.graphs| == |s.graphs|
    ensures forall i :: 0 <= i < |s.graphs| && i != serial ==> t.graphs[i] == s.graphs[i]
    ensures forall i :: 0 <= i < |s.graphs| && Active(t.graphs[i]) ==> Active(s.graphs[i])
    ensures serial < |s.graphs| ==> t.graphs[serial] == Fire(s.graphs[serial], k, s.ctx == Closed, now, r1, r2).graph
    ensures serial >= |s.graphs| ==> t == s
  {
    if serial < |s.graphs| then
      s.(graphs := s.graphs[serial := Fire(s.graphs[serial], k, s.ctx == Closed, now, r1, r2).graph])
    else s
  }

  /** One event. UI events after unmount do nothing. A React effect runs only when one of its
      dependencies changes: the play flag or scene id to a different value, or the settings to a
      new object, which every equalizer change produces. */
  function Step(copy: Copy, initial: FreshState, s: State, e: Event): (t: State)
    ensures !s.mounted && !e.ResumeSettled? && !e.TimerFired? ==> t == s
    ensures e.SetPlaying? && e.on == s.isPlaying ==> t == s
    ensures e.SelectScene? && e.id == s.scene ==> t == s
    ensures e.SetVolume? && e.v == s.volume ==> t == s
    ensures s.mounted && e.ChangeEq? ==> t.eq == Apply(s.eq, e.change)
    ensures s.mounted && e.ChangeEq? ==> |s.graphs| <= |t.graphs|
    ensures s.mounted && e.ChangeEq? && s.handle.Some? && s.handle.value < |s.graphs| ==>
      t.graphs[s.handle.value] == TeardownGraph(s.graphs[s.handle.value])
    ensures e.SetVolume? ==> t.handle == s.handle && |t.graphs| == |s.graphs| && t.pending == s.pending
    ensures e.Unmount? ==> !t.mounted
  {
    match e
    case SetPlaying(on, r) =>
      if !s.mounted || on == s.isPlaying then s else PlayEffect(copy, initial, s.(isPlaying := on), r)
    case SelectScene(id, r) =>
      if !s.mounted || id == s.scene then s else PlayEffect(copy, initial, s.(scene := id), r)
    case ChangeEq(ch, r) =>
      if !s.mounted then s else PlayEffect(copy, initial, s.(eq := Apply(s.eq, ch)), r)
    case SetVolume(v) =>
      if !s.mounted || v == s.volume then s else VolumeEffect(s.(volume := v))
    case ResumeSettled(ok, r) => Settle(s, ok, r)
    case TimerFired(serial, k, now, r1, r2) => TimerEffect(s, serial, k, now, r1, r2)
    case Unmount => if !s.mounted then s else UnmountEffect(initial, s)
  }

  function Run(copy: Copy, initial: FreshState, s: State, es: seq<Event>): State
    decreases |es|
  {
    if es == [] then s else Run(copy, initial, Step(copy, initial, s, es[0]), es[1..])
  }

  lemma {:induction false} RunCons(copy: Copy, initial: FreshState, s: State, e: Event, es: seq<Event>)
    ensures Run(copy, initial, s, [e] + es) == Run(copy, initial, Step(copy, initial, s, e), es)
  {
    assert ([e] + es)[1..] == es;
  }

  /** At most one graph is live. */
  predicate AtMostOneLive(s: State)
  {
    forall i, j :: 0 <= i < |s.graphs| && 0 <= j < |s.graphs| && Active(s.graphs[i]) && Active(s.graphs[j]) ==> i == j
  }

  /** The invariant the synchronous policy keeps: the handle is in range; while mounted a handle
      exists exactly when playing; the only live graph is the handle's; no build waits on a promise. */
  predicate Inv(s: State)
  {
    && (s.handle.Some? ==> s.handle.value < |s.graphs|)
    && (s.mounted ==> (s.handle.Some? <==> s.isPlaying))
    && (forall i :: 0 <= i < |s.graphs| && Active(s.graphs[i]) ==> s.mounted && s.handle == Some(i))
    && (forall k :: 0 <= k < |s.pending| ==> s.pending[k].build.None?)
  }

  lemma InvImpliesOneLive(s: State)
    requires Inv(s)
    ensures AtMostOneLive(s)
  {
  }

  /** After the release, no graph is live. */
  lemma {:induction false} ReleaseSilences(s: State)
    requires Inv(s)
    ensures forall i :: 0 <= i < |s.graphs| ==> !Active(ReleaseHandle(s).graphs[i])
  {
    var t := ReleaseHandle(s);
    forall i | 0 <= i < |s.graphs|
      ensures !Active(t.graphs[i])
    {
      if s.handle == Some(i) {
        assert t.graphs[i] == TeardownGraph(s.graphs[i]);
      } else {
        assert t.graphs[i] == s.graphs[i];
      }
    }
  }

  lemma {:induction false} PlayEffectKeepsInv(initial: FreshState, s: State, s': State, r: Rand)
    requires Inv(s) && s.mounted
    requires s' == s.(isPlaying := s'.isPlaying, scene := s'.scene, eq := s'.eq)
    ensures Inv(PlayEffect(Jsx, initial, s', r))
  {
    var t := PlayEffect(Jsx, initial, s', r);
    ReleaseSilences(s);
    assert ReleaseHandle(s').graphs == ReleaseHandle(s).graphs;
    forall i | 0 <= i < |s.graphs|
      ensures !Active(t.graphs[i])
    {
      assert t.graphs[i] == ReleaseHandle(s).graphs[i];
    }
  }

  /** Every event keeps the invariant under the `.jsx` policy. */
  lemma {:induction false} StepKeepsInv(initial: FreshState, s: State, e: Event)
    requires Inv(s)
    ensures Inv(Step(Jsx, initial, s, e))
  {
    var t := Step(Jsx, initial, s, e);
    match e
    case SetPlaying(on, r) =>
      if s.mounted && on != s.isPlaying {
        PlayEffectKeepsInv(initial, s, s.(isPlaying := on), r);
      }
    case SelectScene(id, r) =>
      if s.mounted && id != s.scene {
        PlayEffectKeepsInv(initial, s, s.(scene := id), r);
      }
    case ChangeEq(ch, r) =>
      if s.mounted {
        PlayEffectKeepsInv(initial, s, s.(eq := Apply(s.eq, ch)), r);
      }
    case SetVolume(v) =>
      if s.mounted && v != s.volume {
        forall i | 0 <= i < |t.graphs| && Active(t.graphs[i])
          ensures t.mounted && t.handle == Some(i)
        {
          assert t.graphs[i].owned == s.graphs[i].owned;
        }
      }
    case ResumeSettled(ok, r) =>
    case TimerFired(serial, k, now, r1, r2) =>
    case Unmount =>
      if s.mounted {
        forall i | 0 <= i < |t.graphs|
          ensures !Active(t.graphs[i])
        {
          if s.handle == Some(i) {
            assert t.graphs[i] == TeardownGraph(s.graphs[i]);
          }
        }
      }
  }

  lemma {:induction false} RunKeepsInv(initial: FreshState, s: State, es: seq<Event>)
    requires Inv(s)
    ensures Inv(Run(Jsx, initial, s, es))
    decreases |es|
  {
    if es != [] {
      StepKeepsInv(initial, s, es[0]);
      RunKeepsInv(initial, Step(Jsx, initial, s, es[0]), es[1..]);
    }
  }

  /** Under the `.jsx` policy, after any sequence of events at most one graph is live, and while
      mounted a handle exists exactly when playing. */
  lemma JsxAtMostOneLive(initial: FreshState, es: seq<Event>)
    ensures AtMostOneLive(Run(Jsx, initial, Init, es))
    ensures Run(Jsx, initial, Init, es).mounted ==>
      (Run(Jsx, initial, Init, es).handle.Some? <==> Run(Jsx, initial, Init, es).isPlaying)
  {
    RunKeepsInv(initial, Init, es);
    InvImpliesOneLive(Run(Jsx, initial, Init, es));
  }

  /** A change of the play flag, the scene id or the settings tears down the handle's graph before
      anything is built, under either copy; after a pause no handle remains. */
  lemma ChangeTearsDownFirst(copy: Copy, initial: FreshState, s: State, e: Event)
    requires s.mounted && s.handle.Some? && s.handle.value < |s.graphs|
    requires || (e.SetPlaying? && e.on != s.isPlaying)
             || (e.SelectScene? && e.id != s.scene)
             || e.ChangeEq?
    ensures Step(copy, initial, s, e).graphs[s.handle.value] == TeardownGraph(s.graphs[s.handle.value])
    ensures !Active(Step(copy, initial, s, e).graphs[s.handle.value])
    ensures !Step(copy, initial, s, e).isPlaying ==> Step(copy, initial, s, e).handle == None
  {
  }

  /** A volume change never builds, tears down or drops anything: only the master gain of the
      handle's graph changes, and while idle the event changes nothing but the stored volume. */
  lemma VolumeNeverRebuilds(copy: Copy, initial: FreshState, s: State, v: real)
    requires s.mounted && v != s.volume
    ensures var t := Step(copy, initial, s, SetVolume(v));
      && t.handle == s.handle && |t.graphs| == |s.graphs| && t.pending == s.pending
      && (forall i :: 0 <= i < |s.graphs| ==> t.graphs[i].owned == s.graphs[i].owned)
      && (s.handle.Some? && s.handle.value < |s.graphs| ==> t.graphs[s.handle.value].master == Some(v * 0.3))
      && (s.handle.None? ==> t == s.(volume := v))
  {
  }

  /** A graph built by a play leaves the master gain at its default: the volume reaches it only
      when the volume next changes. */
  lemma BuiltGraphIgnoresVolume(copy: Copy, initial: FreshState, s: State, r: Rand)
    requires s.mounted && !s.isPlaying
    requires copy == Jsx || GetAudioContext(s.ctx, initial) != Suspended
    ensures var t := Step(copy, initial, s, SetPlaying(true, r));
      t.handle == Some(|s.graphs|) && t.graphs[|s.graphs|].master == None
  {
  }

  /** Under the `.js` policy a captured build runs when the promise settles, whether it resolved or not. */
  lemma JsBuildsOnEitherOutcome(s: State, ok: bool, r: Rand)
    requires s.pending != [] && s.pending[0].build.Some?
    ensures var t := Step(Js, Running, s, ResumeSettled(ok, r));
      && t.handle == Some(|s.graphs|)
      && t.graphs[|s.graphs|] == Build(s.pending[0].build.value.scene, s.pending[0].build.value.eq, r)
      && t.graphs[..|s.graphs|] == s.graphs
  {
  }

  /** After unmount the context is closed, whether or not one existed before. */
  lemma UnmountCloses(copy: Copy, initial: FreshState, s: State)
    requires s.mounted
    ensures Step(copy, initial, s, Unmount).ctx == Closed
    ensures s.handle.Some? && s.handle.value < |s.graphs| ==> !Active(Step(copy, initial, s, Unmount).graphs[s.handle.value])
  {
  }

  /** Two `.js` requests on a suspended context: both builds wait on their promises. */
  lemma JsTwoRequests()
    ensures Step(Js, Suspended, Step(Js, Suspended, Init, SetPlaying(true, 0.0)), SelectScene("ocean", 0.0))
      == Init.(isPlaying := true, scene := "ocean", ctx := Suspended,
               pending := [Pending(Some(Request("rain", Flat))), Pending(Some(Request("ocean", Flat)))])
  {
    assert Scenes[0].id == "rain" && InCatalog("rain") && InCatalog("ocean");
    var s1 := Step(Js, Suspended, Init, SetPlaying(true, 0.0));
    assert s1 == Init.(isPlaying := true, ctx := Suspended, pending := [Pending(Some(Request("rain", Flat)))]);
  }

  /** Both promises resolve: each installs its build, the second over the first. */
  lemma JsTwoSettle(s2: State)
    requires s2 == Init.(isPlaying := true, scene := "ocean", ctx := Suspended,
                         pending := [Pending(Some(Request("rain", Flat))), Pending(Some(Request("ocean", Flat)))])
    ensures var t := Step(Js, Suspended, Step(Js, Suspended, s2, ResumeSettled(true, 0.0)), ResumeSettled(true, 0.0));
      t.graphs == [Build("rain", Flat, 0.0), Build("ocean", Flat, 0.0)] && t.handle == Some(1)
  {
    var s3 := Step(Js, Suspended, s2, ResumeSettled(true, 0.0));
    assert s3.graphs == [Build("rain", Flat, 0.0)] && s3.pending == [Pending(Some(Request("ocean", Flat)))];
  }

  /** Under the `.js` policy two scene requests made while the context is suspended both build
      once the promises resolve: two graphs are live and the first is no longer referenced, so no
      later pause can stop it. */
  lemma JsTwoLiveGraphs()
    ensures var t := Run(Js, Suspended, Init,
      [SetPlaying(true, 0.0), SelectScene("ocean", 0.0), ResumeSettled(true, 0.0), ResumeSettled(true, 0.0)]);
      && |t.graphs| == 2 && t.handle == Some(1)
      && Active(t.graphs[0]) && Active(t.graphs[1])
      && !AtMostOneLive(t)
  {
    var e1, e2, e3 := SetPlaying(true, 0.0), SelectScene("ocean", 0.0), ResumeSettled(true, 0.0);
    var s1 := Step(Js, Suspended, Init, e1);
    var s2 := Step(Js, Suspended, s1, e2);
    JsTwoRequests();
    var s3 := Step(Js, Suspended, s2, e3);
    var s4 := Step(Js, Suspended, s3, e3);
    JsTwoSettle(s2);
    RunCons(Js, Suspended, s3, e3, []);
    RunCons(Js, Suspended, s2, e3, [e3]);
    RunCons(Js, Suspended, s1, e2, [e3, e3]);
    RunCons(Js, Suspended, Init, e1, [e2, e3, e3]);
    assert Active(s4.graphs[0]) && Active(s4.graphs[1]);
  }

  /** Under the `.js` policy a pause made before a suspended context settles does not stop the
      deferred build: the scene plays while the controller shows it paused, and even a failed
      `resume()` builds it. */
  lemma JsPlaysWhilePaused()
    ensures var t := Run(Js, Suspended, Init,
      [SetPlaying(true, 0.0), SetPlaying(false, 0.0), ResumeSettled(false, 0.0)]);
      && t.mounted && !t.isPlaying && t.handle == Some(0)
      && Active(t.graphs[0]) && t.ctx == Suspended
      && !Inv(t)
  {
    var e1, e2, e3 := SetPlaying(true, 0.0), SetPlaying(false, 0.0), ResumeSettled(false, 0.0);
    assert Scenes[0].id == "rain" && InCatalog("rain");
    var s1 := Step(Js, Suspended, Init, e1);
    assert s1.pending == [Pending(Some(Request("rain", Flat)))] && s1.graphs == [] && s1.ctx == Suspended;
    var s2 := Step(Js, Suspended, s1, e2);
    assert s2.pending == s1.pending && s2.graphs == [] && !s2.isPlaying;
    var s3 := Step(Js, Suspended, s2, e3);
    assert s3.graphs == [Build("rain", Flat, 0.0)] && s3.handle == Some(0);
    RunCons(Js, Suspended, s2, e3, []);
    RunCons(Js, Suspended, s1, e2, [e3]);
    RunCons(Js, Suspended, Init, e1, [e2, e3]);
  }
}

=== FILE: scene.dfy ===
/** The scene catalog and the scene-graph builder (`createNatureSound`): for a scene id and the
    equalizer settings, the declarative description of what the builder creates and connects. */
module SceneGraph {
  import opened Common
  import opened Equalizer

  /** A scene of the catalog; the CSS gradient and description strings are not modelled. */
  datatype Scene = Scene(id: string, name: string)

  /** `NATURE_SCENES`, in display order; the first one is the initial scene. */
  const Scenes := [Scene("rain", "Rain"), Scene("forest", "Forest"), Scene("ocean", "Ocean"), Scene("night", "Night")]

  predicate InCatalog(id: string)
  {
    id == "rain" || id == "forest" || id == "ocean" || id == "night"
  }

  lemma CatalogIds(id: string)
    ensures InCatalog(id) <==> exists k :: 0 <= k < |Scenes| && Scenes[k].id == id
  {
    if InCatalog(id) {
      var k := if id == "rain" then 0 else if id == "forest" then 1 else if id == "ocean" then 2 else 3;
      assert Scenes[k].id == id;
    }
  }

  datatype Wave = Sine | Square | Sawtooth

  /** What a source node is: a looping noise buffer or an oscillator. */
  datatype NodeKind = PinkNoise | BrownNoise | Oscillator(wave: Wave, hz: real)

  /** A source node's lifecycle: created, `start()`ed, `stop()`ped. */
  datatype NodeState = Unstarted | Playing | Stopped

  /** The two repeating one-shot sounds a scene schedules with `setInterval`. */
  datatype Transient = BirdChirps | OwlCalls

  /** An entry of a graph's `nodes` list: a source node or `{type: 'interval', value}`. */
  datatype Entry =
    | Node(kind: NodeKind, state: NodeState)
    | Interval(transient: Transient, periodMs: real, cleared: bool)

  datatype FilterType = Lowpass | Bandpass

  /** A biquad filter; `q == None` leaves the node's default Q in place. */
  datatype Filter = Filter(ftype: FilterType, hz: real, q: Option<real>)

  /** An LFO wired through a gain of `depth` into a frequency parameter. */
  datatype Modulation = Modulation(wave: Wave, rateHz: real, depth: real)

  /** A chain from a source, through an optional filter, to a gain node feeding the master gain.
      The gain node is set to `base`, scaled by `band / 50` when the chain follows a band. */
  datatype Chain = Chain(
    source: NodeKind,
    sourceMod: Option<Modulation>,
    filter: Option<Filter>,
    filterMod: Option<Modulation>,
    base: real,
    band: Option<Band>,
    gain: real)

  /** What `createNatureSound` returns and creates.
      - `masterToOutput`: the master gain is connected to the context's destination;
      - `master`: the master gain's value as assigned, `None` while it keeps the node's default;
      - `owned`: the `nodes` list teardown walks;
      - `stray`: started nodes that no owned list holds;
      - `deadEnds`: values of gain nodes that nothing downstream reads;
      - `eq`: the settings the transient callbacks captured. */
  datatype Graph = Graph(
    masterToOutput: bool,
    master: Option<real>,
    chains: seq<Chain>,
    owned: seq<Entry>,
    stray: seq<Entry>,
    deadEnds: seq<real>,
    eq: Eq)

  const CricketTone := Oscillator(Sine, 4500.0)
  const CricketLfo := Oscillator(Square, 4.0)
  const WaveLfo := Oscillator(Sine, 0.1)
  const WindLfo := Oscillator(Sine, 0.2)

  /** An entry that still sounds or still fires: a playing node or an interval not yet cleared. */
  predicate Holds(e: Entry)
  {
    (e.Node? && e.state == Playing) || (e.Interval? && !e.cleared)
  }

  /** A graph is live while some owned entry still holds. */
  predicate Active(g: Graph)
  {
    exists k :: 0 <= k < |g.owned| && Holds(g.owned[k])
  }

  /** The gain a chain's formula gives under `eq`. */
  function Level(c: Chain, eq: Eq): real
  {
    match c.band
    case None => c.base
    case Some(b) => Scaled(c.base, Get(eq, b))
  }

  /** The interval period ranges: `2000 + r * 3000` for birds, `15000 + r * 20000` for owls. */
  predicate PeriodInRange(e: Entry)
    requires e.Interval?
  {
    match e.transient
    case BirdChirps => 2000.0 <= e.periodMs < 5000.0
    case OwlCalls => 15000.0 <= e.periodMs < 35000.0
  }

  /** How the builder leaves an owned entry: every node started except the cricket tone, whose
      `start()` is never called, and every interval armed. */
  predicate AsBuilt(e: Entry)
  {
    && (e.Node? ==> (e.state == Playing <==> e.kind != CricketTone) && e.state != Stopped)
    && (e.Interval? ==> !e.cleared && PeriodInRange(e))
  }

  function Tuned(source: NodeKind, sourceMod: Option<Modulation>, filter: Option<Filter>,
                 filterMod: Option<Modulation>, base: real, band: Option<Band>, eq: Eq): Chain
  {
    var c := Chain(source, sourceMod, filter, filterMod, base, band, 0.0);
    c.(gain := Level(c, eq))
  }

  function LowpassAt(hz: real): Option<Filter>
  {
    Some(Filter(Lowpass, hz, None))
  }

  function Played(k: NodeKind): Entry
  {
    Node(k, Playing)
  }

  function Rain(eq: Eq): Graph
  {
    Graph(true, None,
      [ Tuned(PinkNoise, None, LowpassAt(2000.0), None, 0.4, Some(High), eq),
        Tuned(BrownNoise, None, LowpassAt(80.0), None, 0.02, None, eq) ],
      [Played(PinkNoise), Played(BrownNoise)],
      [], [], eq)
  }

  function Ocean(eq: Eq): Graph
  {
    Graph(true, None,
      [ Tuned(PinkNoise, None, Some(Filter(Bandpass, 400.0, Some(0.5))), Some(Modulation(Sine, 0.1, 0.3)), 0.35, Some(Low), eq),
        Tuned(BrownNoise, None, LowpassAt(300.0), None, 0.15, Some(Mid), eq) ],
      [Played(PinkNoise), Played(WaveLfo), Played(BrownNoise)],
      [], [], eq)
  }

  function Forest(eq: Eq, r: Rand): Graph
  {
    Graph(true, None,
      [ Tuned(PinkNoise, None, LowpassAt(1000.0), None, 0.2, Some(Mid), eq),
        Tuned(PinkNoise, None, Some(Filter(Bandpass, 600.0, Some(0.3))), Some(Modulation(Sine, 0.2, 200.0)), 0.1, Some(High), eq) ],
      [Played(PinkNoise), Played(PinkNoise), Played(WindLfo), Interval(BirdChirps, 2000.0 + r * 3000.0, false)],
      [], [], eq)
  }

  /** The cricket source (`createCricketSound`) returns an oscillator it never starts; the square LFO
      driving it is started but returned to no one, and its own 0.15 gain leads nowhere. */
  function Night(eq: Eq, r: Rand): Graph
  {
    Graph(true, None,
      [ Tuned(CricketTone, Some(Modulation(Square, 4.0, 3000.0)), None, None, 0.3, Some(High), eq),
        Tuned(PinkNoise, None, LowpassAt(400.0), None, 0.15, Some(Low), eq) ],
      [Node(CricketTone, Unstarted), Played(PinkNoise), Interval(OwlCalls, 15000.0 + r * 20000.0, false)],
      [Played(CricketLfo)], [0.15], eq)
  }

  /** `createNatureSound(sceneId, eq)`; `r` is the `Math.random()` draw fixing the interval period. */
  function Build(sceneId: string, eq: Eq, r: Rand): (g: Graph)
    ensures g.masterToOutput && g.master == None && g.eq == eq
    ensures |g.chains| == (if InCatalog(sceneId) then 2 else 0)
    ensures forall k :: 0 <= k < |g.chains| ==> g.chains[k].gain == Level(g.chains[k], eq)
    ensures |g.owned| > 0 <==> InCatalog(sceneId)
    ensures forall k :: 0 <= k < |g.owned| ==> AsBuilt(g.owned[k])
    ensures Active(g) <==> InCatalog(sceneId)
    ensures forall k :: 0 <= k < |g.stray| ==> Holds(g.stray[k])
  {
    var g :=
      if sceneId == "rain" then Rain(eq)
      else if sceneId == "ocean" then Ocean(eq)
      else if sceneId == "forest" then Forest(eq, r)
      else if sceneId == "night" then Night(eq, r)
      else Graph(true, None, [], [], [], [], eq);
    assert InCatalog(sceneId) ==> Holds(g.owned[1]);
    g
  }

  /** The shape of an owned entry: which source, or which transient timer. */
  datatype Shape = Source(kind: NodeKind) | Timer(transient: Transient)

  function Shapes(owned: seq<Entry>): seq<Shape>
  {
    seq(|owned|, k requires 0 <= k < |owned| =>
      match owned[k]
      case Node(kind, _) => Source(kind)
      case Interval(t, _, _) => Timer(t))
  }

  /** Rain: pink noise through a 2 kHz low-pass at 0.4 of `high`, brown noise through an 80 Hz
      low-pass at a fixed 0.02. */
  lemma RainScene(eq: Eq, r: Rand)
    ensures var g := Build("rain", eq, r);
      && Shapes(g.owned) == [Source(PinkNoise), Source(BrownNoise)]
      && g.chains[0].source == PinkNoise && g.chains[0].filter == Some(Filter(Lowpass, 2000.0, None))
      && g.chains[0].gain == Scaled(0.4, eq.high)
      && g.chains[1].source == BrownNoise && g.chains[1].filter == Some(Filter(Lowpass, 80.0, None))
      && g.chains[1].gain == 0.02
      && g.stray == [] && g.deadEnds == []
  {
  }

  /** Ocean: pink noise through a 400 Hz band-pass (Q 0.5) swept by a 0.1 Hz LFO at 0.35 of `low`;
      brown noise through a 300 Hz low-pass at 0.15 of `mid`. */
  lemma OceanScene(eq: Eq, r: Rand)
    ensures var g := Build("ocean", eq, r);
      && Shapes(g.owned) == [Source(PinkNoise), Source(WaveLfo), Source(BrownNoise)]
      && g.chains[0].filter == Some(Filter(Bandpass, 400.0, Some(0.5)))
      && g.chains[0].filterMod == Some(Modulation(Sine, 0.1, 0.3))
      && g.chains[0].gain == Scaled(0.35, eq.low)
      && g.chains[1].source == BrownNoise && g.chains[1].filter == Some(Filter(Lowpass, 300.0, None))
      && g.chains[1].gain == Scaled(0.15, eq.mid)
      && g.stray == [] && g.deadEnds == []
  {
  }

  /** Forest: pink noise through a 1 kHz low-pass at 0.2 of `mid`, wind through a 600 Hz band-pass
      (Q 0.3) swept by a 0.2 Hz LFO at 0.1 of `high`, and bird chirps every 2 to 5 seconds. */
  lemma ForestScene(eq: Eq, r: Rand)
    ensures var g := Build("forest", eq, r);
      && Shapes(g.owned) == [Source(PinkNoise), Source(PinkNoise), Source(WindLfo), Timer(BirdChirps)]
      && g.chains[0].filter == Some(Filter(Lowpass, 1000.0, None))
      && g.chains[0].gain == Scaled(0.2, eq.mid)
      && g.chains[1].filter == Some(Filter(Bandpass, 600.0, Some(0.3)))
      && g.chains[1].filterMod == Some(Modulation(Sine, 0.2, 200.0))
      && g.chains[1].gain == Scaled(0.1, eq.high)
      && 2000.0 <= g.owned[3].periodMs < 5000.0
      && g.stray == [] && g.deadEnds == []
  {
  }

  /** Night: the cricket tone at 0.3 of `high` (never started), wind through a 400 Hz low-pass at
      0.15 of `low`, owl calls every 15 to 35 seconds; the cricket LFO runs outside the owned list. */
  lemma NightScene(eq: Eq, r: Rand)
    ensures var g := Build("night", eq, r);
      && Shapes(g.owned) == [Source(CricketTone), Source(PinkNoise), Timer(OwlCalls)]
      && g.owned[0].state == Unstarted
      && g.chains[0].source == CricketTone && g.chains[0].sourceMod == Some(Modulation(Square, 4.0, 3000.0))
      && g.chains[0].gain == Scaled(0.3, eq.high)
      && g.chains[1].filter == Some(Filter(Lowpass, 400.0, None))
      && g.chains[1].gain == Scaled(0.15, eq.low)
      && 15000.0 <= g.owned[2].periodMs < 35000.0
      && g.stray == [Node(CricketLfo, Playing)] && g.deadEnds == [0.15]
  {
  }

  /** Any other id: only the master gain is created, and the graph owns nothing. */
  lemma UnknownScene(id: string, eq: Eq, r: Rand)
    requires !InCatalog(id)
    ensures Build(id, eq, r).owned == [] && Build(id, eq, r).chains == [] && !Active(Build(id, eq, r))
  {
  }

  /** With every band at 50 each chain plays at its base level; a band at 0 silences the chains
      following it and a band at 100 doubles them. */
  lemma {:induction false} BandScaling(id: string, eq: Eq, r: Rand, k: nat)
    requires k < |Build(id, eq, r).chains|
    ensures var c := Build(id, eq, r).chains[k];
      && (eq == Flat ==> c.gain == c.base)
      && (c.band.Some? && Get(eq, c.band.value) == 0 ==> c.gain == 0.0)
      && (c.band.Some? && Get(eq, c.band.value) == 100 ==> c.gain == 2.0 * c.base)
  {
    var c := Build(id, eq, r).chains[k];
    assert c.gain == Level(c, eq);
    if c.band.Some? {
      assert eq == Flat ==> Get(eq, c.band.value) == 50;
    }
  }
}

=== FILE: teardown.dfy ===
/** Teardown of a scene graph: the `nodes.forEach` loop that clears every interval and stops every
    node, swallowing the exception `stop()` raises for a node that is not playing. */
module Teardown {
  import opened SceneGraph

  /** Whether `stop()` throws on this entry. Web Audio throws for a node never started; older
      engines also threw for a node already stopped. Either way the loop catches it. */
  predicate StopThrows(e: Entry)
  {
    e.Node? && e.state != Playing
  }

  /** One step of the loop: `clearInterval` for an interval, `stop()` for a node. */
  function Release(e: Entry): (r: Entry)
    ensures !Holds(r)
    ensures r.Node? <==> e.Node?
    ensures e.Node? ==> r.kind == e.kind && (e.state == Playing ==> r.state == Stopped)
    ensures StopThrows(e) ==> r == e
    ensures e.Interval? ==> r.cleared && r.transient == e.transient && r.periodMs == e.periodMs
  {
    match e
    case Node(k, st) => if st == Playing then Node(k, Stopped) else e
    case Interval(t, p, _) => Interval(t, p, true)
  }

  /** The owned list after teardown, entry by entry. */
  function ReleaseAll(owned: seq<Entry>): seq<Entry>
  {
    seq(|owned|, k requires 0 <= k < |owned| => Release(owned[k]))
  }

  /** How many `stop()` calls throw (and are swallowed) while tearing down `owned`. */
  function Throws(owned: seq<Entry>): nat
  {
    if owned == [] then 0
    else Throws(owned[..|owned| - 1]) + (if StopThrows(owned[|owned| - 1]) then 1 else 0)
  }

  /** The whole graph after teardown: only the owned list changes. */
  function TeardownGraph(g: Graph): (r: Graph)
    ensures !Active(r)
    ensures |r.owned| == |g.owned|
    ensures r.stray == g.stray && r.chains == g.chains && r.master == g.master && r.eq == g.eq
    ensures r == g.(owned := r.owned)
    ensures forall k :: 0 <= k < |g.owned| ==> r.owned[k] == Release(g.owned[k])
  {
    g.(owned := ReleaseAll(g.owned))
  }

  /** The teardown loop as the source runs it, one entry at a time; nothing it catches escapes. */
  method RunTeardown(owned: seq<Entry>) returns (released: seq<Entry>, swallowed: nat)
    ensures released == ReleaseAll(owned)
    ensures swallowed == Throws(owned)
  {
    released, swallowed := [], 0;
    var i := 0;
    while i < |owned|
      invariant 0 <= i <= |owned|
      invariant |released| == i
      invariant forall k :: 0 <= k < i ==> released[k] == Release(owned[k])
      invariant swallowed == Throws(owned[..i])
    {
      var e := owned[i];
      match e {
        case Interval(t, p, _) =>
          released := released + [Interval(t, p, true)];
        case Node(k, st) =>
          if st == Playing {
            released := released + [Node(k, Stopped)];
          } else {
            swallowed := swallowed + 1;
            released := released + [e];
          }
      }
      assert owned[..i + 1][..i] == owned[..i];
      i := i + 1;
    }
    assert owned[..|owned|] == owned;
  }

  /** Tearing a graph down twice is the same as once. */
  lemma TeardownIdempotent(g: Graph)
    ensures TeardownGraph(TeardownGraph(g)) == TeardownGraph(g)
  {
    assert ReleaseAll(ReleaseAll(g.owned)) == ReleaseAll(g.owned);
  }

  function CountNodes(owned: seq<Entry>): nat
  {
    if owned == [] then 0
    else CountNodes(owned[..|owned| - 1]) + (if owned[|owned| - 1].Node? then 1 else 0)
  }

  /** On a second teardown every `stop()` throws, and every one of them is caught. */
  lemma {:induction false} SecondTeardownOnlyThrows(owned: seq<Entry>)
    ensures Throws(ReleaseAll(owned)) == CountNodes(owned)
    decreases |owned|
  {
    if owned != [] {
      var n := |owned| - 1;
      assert ReleaseAll(owned)[..n] == ReleaseAll(owned[..n]);
      SecondTeardownOnlyThrows(owned[..n]);
    }
  }

  /** Teardown of a night graph leaves the cricket LFO running: no owned list holds it. */
  lemma NightLeavesCricketLfo(eq: Equalizer.Eq, r: Common.Rand)
    ensures TeardownGraph(Build("night", eq, r)).stray == [Node(CricketLfo, Playing)]
  {
    NightScene(eq, r);
  }
}

=== FILE: text.dfy ===
/** String helpers shared by the editor: JavaScript white space, `trim`, `split`, `join`,
    the tag-stripping regular expression `/<[^>]*>/g` and the word count. */
module Text {

  /** JavaScript's white space class: what `\s` matches and what `trim` removes
      (white space and line terminators, including the Unicode space separators). */
  predicate IsSpace(c: char)
  {
    c in Spaces
  }

  const Spaces: set<char> := {
    ' ', '\t', '\n', '\r', '\U{000B}', '\U{000C}', '\U{00A0}', '\U{1680}',
    '\U{2000}', '\U{2001}', '\U{2002}', '\U{2003}', '\U{2004}', '\U{2005}',
    '\U{2006}', '\U{2007}', '\U{2008}', '\U{2009}', '\U{200A}',
    '\U{2028}', '\U{2029}', '\U{202F}', '\U{205F}', '\U{3000}', '\U{FEFF}'
  }

  predicate AllSpace(s: string)
  {
    forall k :: 0 <= k < |s| ==> IsSpace(s[k])
  }

  predicate NoSpace(s: string)
  {
    forall k :: 0 <= k < |s| ==> !IsSpace(s[k])
  }

  /** Length of the white-space prefix of `s`. */
  function LeadingSpaces(s: string): (n: nat)
    ensures n <= |s|
    ensures AllSpace(s[..n])
    ensures n < |s| ==> !IsSpace(s[n])
  {
    if s == [] || !IsSpace(s[0]) then 0 else 1 + LeadingSpaces(s[1..])
  }

  /** Length of the white-space suffix of `s`. */
  function TrailingSpaces(s: string): (n: nat)
    ensures n <= |s|
    ensures AllSpace(s[|s| - n..])
    ensures n < |s| ==> !IsSpace(s[|s| - 1 - n])
  {
    if s == [] || !IsSpace(s[|s| - 1]) then 0 else 1 + TrailingSpaces(s[..|s| - 1])
  }

  /** Length of the prefix of `s` holding no white space. */
  function FirstSpace(s: string): (n: nat)
    ensures n <= |s|
    ensures NoSpace(s[..n])
    ensures n < |s| ==> IsSpace(s[n])
  {
    if s == [] || IsSpace(s[0]) then 0 else 1 + FirstSpace(s[1..])
  }

  /** `String.prototype.trim`: the text between the leading and the trailing white space. */
  function Trim(s: string): string
  {
    s[LeadingSpaces(s)..][..|s[LeadingSpaces(s)..]| - TrailingSpaces(s[LeadingSpaces(s)..])]
  }

  /** `s` is its leading white space, then the trimmed text, then trailing white space; the
      trimmed text is empty exactly when `s` is all white space, and otherwise starts and ends
      with a non-space. */
  lemma {:induction false} TrimShape(s: string)
    ensures LeadingSpaces(s) + |Trim(s)| <= |s|
    ensures s == s[..LeadingSpaces(s)] + Trim(s) + s[LeadingSpaces(s) + |Trim(s)|..]
    ensures AllSpace(s[LeadingSpaces(s) + |Trim(s)|..])
    ensures Trim(s) == [] <==> AllSpace(s)
    ensures Trim(s) != [] ==> !IsSpace(Trim(s)[0]) && !IsSpace(Trim(s)[|Trim(s)| - 1])
  {
    TrimCut(s, Trim(s));
  }

  /** Cutting `s` after its leading and before the trailing white space of what is left. */
  lemma {:induction false} TrimCut(s: string, r: string)
    requires LeadingSpaces(s) <= |s|
    requires r == s[LeadingSpaces(s)..][..|s[LeadingSpaces(s)..]| - TrailingSpaces(s[LeadingSpaces(s)..])]
    ensures LeadingSpaces(s) + |r| <= |s|
    ensures s == s[..LeadingSpaces(s)] + r + s[LeadingSpaces(s) + |r|..]
    ensures AllSpace(s[LeadingSpaces(s) + |r|..])
    ensures r == [] <==> AllSpace(s)
    ensures r != [] ==> !IsSpace(r[0]) && !IsSpace(r[|r| - 1])
  {
    var i := LeadingSpaces(s);
    var t := s[i..];
    var m := TrailingSpaces(t);
    var n := |t| - m;
    Slices(s, i, n);
    assert AllSpace(s[i + n..]) by {
      assert t[n..] == s[i + n..];
    }
    if i < |s| {
      assert t[0] == s[i];
      assert n > 0;
      assert t[..n][0] == s[i] && t[..n][n - 1] == t[|t| - 1 - m];
    } else {
      assert s == s[..i];
    }
  }

  /** Cutting `s` at `i` and `i + n`. */
  lemma {:induction false} Slices(s: string, i: nat, n: nat)
    requires i + n <= |s|
    ensures s == s[..i] + s[i..][..n] + s[i + n..]
    ensures s[i..][n..] == s[i + n..]
  {
    assert s[i..] == s[i..][..n] + s[i..][n..];
    assert s == s[..i] + s[i..];
  }

  /** Position of the first `c` in `s`. */
  function IndexOf(s: string, c: char): (i: nat)
    requires c in s
    ensures i < |s| && s[i] == c
    ensures c !in s[..i]
  {
    if s[0] == c then 0 else 1 + IndexOf(s[1..], c)
  }

  /** `parts.join(sep)`: the parts in order, with `sep` between neighbours. */
  function Join(parts: seq<string>, sep: string): (r: string)
    ensures |parts| == 0 ==> r == []
    ensures |parts| >= 1 ==> parts[0] <= r
    ensures |parts| >= 2 ==> parts[0] + sep <= r
    decreases |parts|
  {
    if |parts| == 0 then []
    else if |parts| == 1 then parts[0]
    else parts[0] + sep + Join(parts[1..], sep)
  }

  /** A character in neither the parts nor the separator is not in their join. */
  lemma {:induction false} JoinAvoids(parts: seq<string>, sep: string, c: char)
    requires c !in sep
    requires forall k :: 0 <= k < |parts| ==> c !in parts[k]
    ensures c !in Join(parts, sep)
    decreases |parts|
  {
    if |parts| > 1 {
      JoinAvoids(parts[1..], sep, c);
    }
  }

  /** `s.split(c)` for a one-character separator: the maximal pieces between occurrences of `c`,
      so the empty string gives one empty piece and two adjacent separators an empty piece. */
  function SplitOn(s: string, c: char): (parts: seq<string>)
    ensures |parts| >= 1
    ensures forall k :: 0 <= k < |parts| ==> c !in parts[k]
    ensures Join(parts, [c]) == s
    ensures c !in s ==> parts == [s]
    ensures forall k, ch :: 0 <= k < |parts| && ch in parts[k] ==> ch in s
    decreases |s|
  {
    if c !in s then [s]
    else
      var i := IndexOf(s, c);
      var rest := SplitOn(s[i + 1..], c);
      SplitOnCut(s, c, i, rest);
      [s[..i]] + rest
  }

  /** The line before the first `c`, put in front of the split of what follows that `c`. */
  lemma {:induction false} SplitOnCut(s: string, c: char, i: nat, rest: seq<string>)
    requires i < |s| && s[i] == c && c !in s[..i]
    requires |rest| >= 1 && Join(rest, [c]) == s[i + 1..]
    requires forall k :: 0 <= k < |rest| ==> c !in rest[k]
    requires forall k, ch :: 0 <= k < |rest| && ch in rest[k] ==> ch in s[i + 1..]
    ensures forall k :: 0 <= k < |[s[..i]] + rest| ==> c !in ([s[..i]] + rest)[k]
    ensures Join([s[..i]] + rest, [c]) == s
    ensures forall k, ch :: 0 <= k < |[s[..i]] + rest| && ch in ([s[..i]] + rest)[k] ==> ch in s
  {
    var parts := [s[..i]] + rest;
    assert s == s[..i] + [c] + s[i + 1..];
    assert parts[1..] == rest;
    forall k, ch | 0 <= k < |parts| && ch in parts[k] ensures ch in s {
      if k > 0 {
        assert parts[k] == rest[k - 1];
        assert ch in s[i + 1..];
      }
    }
  }

  /** No `<` in `s` has a `>` anywhere after it, so `/<[^>]*>/` cannot match. */
  predicate NoTag(s: string)
  {
    forall i, j :: 0 <= i < j < |s| && s[i] == '<' ==> s[j] != '>'
  }

  /** `s.replace(/<[^>]*>/g, '')`: scanning left to right, each `<` that has a `>` somewhere after it
      is removed together with everything up to and including the first such `>`; a `<` with no
      later `>` stays. */
  function StripTags(s: string): (r: string)
    ensures '<' !in s ==> r == s
    ensures '>' !in s ==> r == s
    ensures |r| <= |s|
    decreases |s|
  {
    if s == [] then []
    else if s[0] == '<' && '>' in s[1..] then
      var n := IndexOf(s[1..], '>') + 2;
      StripTags(s[n..])
    else
      var tail := StripTags(s[1..]);
      NotInTail(s, '<');
      NotInTail(s, '>');
      assert s == [s[0]] + s[1..];
      [s[0]] + tail
  }

  /** No tag survives the stripping, and nothing is added. */
  lemma {:induction false} StripTagsLeavesNoTag(s: string)
    ensures NoTag(StripTags(s))
    ensures forall ch :: ch in StripTags(s) ==> ch in s
    decreases |s|
  {
    if s != [] {
      if s[0] == '<' && '>' in s[1..] {
        var n := IndexOf(s[1..], '>') + 2;
        StripTagsLeavesNoTag(s[n..]);
        SuffixChars(s, n);
      } else {
        var tail := StripTags(s[1..]);
        StripTagsLeavesNoTag(s[1..]);
        SuffixChars(s, 1);
        assert s[0] == '<' ==> '>' !in tail;
        ConsNoTag(s[0], tail);
      }
    }
  }

  /** Text before the first `<` is kept as it stands. */
  lemma {:induction false} StripTagsPlainPrefix(a: string, b: string)
    requires '<' !in a
    ensures StripTags(a + b) == a + StripTags(b)
    decreases |a|
  {
    if a == [] {
      assert a + b == b;
    } else {
      NotInTail(a, '<');
      StripTagsPlainPrefix(a[1..], b);
      StripTagsPlainStep(a, b);
    }
  }

  lemma {:induction false} StripTagsPlainStep(a: string, b: string)
    requires a != [] && a[0] != '<'
    requires StripTags(a[1..] + b) == a[1..] + StripTags(b)
    ensures StripTags(a + b) == a + StripTags(b)
  {
    HeadSplit(a, b, StripTags(b));
    StripTagsCons(a[0], a[1..] + b);
  }

  lemma {:induction false} NotInTail(s: string, c: char)
    requires s != []
    ensures c !in s ==> s[0] != c && c !in s[1..]
  {
    assert s == [s[0]] + s[1..];
  }

  lemma {:induction false} StripTagsCons(c: char, s: string)
    requires c != '<'
    ensures StripTags([c] + s) == [c] + StripTags(s)
  {
    assert ([c] + s)[1..] == s;
  }

  /** A tag, from `<` to the first `>` after it, is removed with everything inside it. */
  lemma {:induction false} StripTagsDropsTag(t: string, b: string)
    requires '>' !in t
    ensures StripTags("<" + t + ">" + b) == StripTags(b)
  {
    var s := "<" + t + ">" + b;
    assert s[1..] == t + ">" + b;
    IndexOfAfter(t, '>', b);
    assert s[|t| + 2..] == b;
  }

  /** The first `c` in `a + [c] + b` is the one after `a`, when `a` holds none. */
  lemma {:induction false} IndexOfAfter(a: string, c: char, b: string)
    requires c !in a
    ensures c in a + [c] + b && IndexOf(a + [c] + b, c) == |a|
    decreases |a|
  {
    var s := a + [c] + b;
    assert s[|a|] == c;
    if a != [] {
      assert s[0] == a[0] && s[1..] == a[1..] + [c] + b;
      IndexOfAfter(a[1..], c, b);
    }
  }

  /** Taking the first element off `a` in front of a concatenation. */
  lemma {:induction false} HeadSplit<T>(a: seq<T>, b: seq<T>, y: seq<T>)
    requires a != []
    ensures a == [a[0]] + a[1..]
    ensures a + b == [a[0]] + (a[1..] + b)
    ensures [a[0]] + (a[1..] + y) == a + y
  {
    assert a == [a[0]] + a[1..];
  }

  lemma {:induction false} ConcatAssoc<T>(a: seq<T>, b: seq<T>, c: seq<T>)
    ensures a + (b + c) == (a + b) + c
  {
  }

  /** A line ended by `c` is split off as the first part. */
  lemma {:induction false} SplitOnLead(a: string, c: char, rest: string)
    requires c !in a
    ensures SplitOn(a + [c] + rest, c) == [a] + SplitOn(rest, c)
  {
    var s := a + [c] + rest;
    IndexOfAfter(a, c, rest);
    assert s[..|a|] == a && s[|a| + 1..] == rest;
  }

  /** Every character of a suffix occurs in the whole. */
  lemma {:induction false} SuffixChars(s: string, n: nat)
    requires n <= |s|
    ensures forall ch :: ch in s[n..] ==> ch in s
  {
    forall ch | ch in s[n..] ensures ch in s {
      var k :| 0 <= k < |s[n..]| && s[n..][k] == ch;
      assert s[n + k] == ch;
    }
  }

  /** A character put in front of tag-free text keeps it tag-free unless it opens a tag. */
  lemma {:induction false} ConsNoTag(c: char, tail: string)
    requires NoTag(tail)
    requires c == '<' ==> '>' !in tail
    ensures NoTag([c] + tail)
  {
    var r := [c] + tail;
    forall i, j | 0 <= i < j < |r| && r[i] == '<' ensures r[j] != '>' {
      assert r[j] == tail[j - 1];
      if i > 0 {
        assert r[i] == tail[i - 1];
      }
    }
  }

  /** `s.split(/\s+/)`: the pieces between maximal white-space runs. A leading or trailing
      run gives an empty first or last piece; the empty string gives one empty piece. */
  function SplitWs(s: string): (parts: seq<string>)
    ensures |parts| >= 1
    ensures forall k :: 0 <= k < |parts| ==> NoSpace(parts[k])
    ensures s != [] && !IsSpace(s[0]) ==> parts[0] != []
    ensures forall k :: 0 < k < |parts| - 1 ==> parts[k] != []
    decreases |s|
  {
    var i := FirstSpace(s);
    if i == |s| then [s]
    else
      var j := i + LeadingSpaces(s[i..]);
      [s[..i]] + SplitWs(s[j..])
  }

  /** Reference count of words: the number of maximal non-white-space runs in `s`, counted as the
      positions holding a non-space that follow a space or (when `afterSpace`) the start. */
  function WordStarts(s: string, afterSpace: bool): nat
  {
    if s == [] then 0
    else (if afterSpace && !IsSpace(s[0]) then 1 else 0) + WordStarts(s[1..], IsSpace(s[0]))
  }

  /** Number of maximal non-white-space runs of `s`. */
  function Words(s: string): nat
  {
    WordStarts(s, true)
  }

  lemma {:induction false} WordStartsConcat(a: string, b: string, f: bool)
    ensures WordStarts(a + b, f) == WordStarts(a, f) + WordStarts(b, if a == [] then f else IsSpace(a[|a| - 1]))
    decreases |a|
  {
    if a == [] {
      assert a + b == b;
    } else {
      assert (a + b)[1..] == a[1..] + b;
      WordStartsConcat(a[1..], b, IsSpace(a[0]));
    }
  }

  lemma {:induction false} WordStartsAllSpace(s: string, f: bool)
    requires AllSpace(s)
    ensures WordStarts(s, f) == 0
    decreases |s|
  {
    if s != [] {
      WordStartsAllSpace(s[1..], IsSpace(s[0]));
    }
  }

  lemma {:induction false} WordStartsNoSpace(s: string, f: bool)
    requires NoSpace(s)
    ensures WordStarts(s, f) == if s != [] && f then 1 else 0
    decreases |s|
  {
    if s != [] {
      WordStartsNoSpace(s[1..], false);
    }
  }

  /** A word, then a white-space run, then the rest: one word more than the rest. */
  lemma {:induction false} WordsAfterGap(s: string, i: nat, j: nat)
    requires 0 < i < j <= |s|
    requires NoSpace(s[..i]) && AllSpace(s[i..j])
    ensures Words(s) == 1 + Words(s[j..])
  {
    var a, g, t := s[..i], s[i..j], s[j..];
    assert s == a + (g + t);
    WordStartsConcat(a, g + t, true);
    WordStartsNoSpace(a, true);
    assert !IsSpace(a[i - 1]);
    WordStartsConcat(g, t, false);
    WordStartsAllSpace(g, false);
    assert IsSpace(g[|g| - 1]);
  }

  /** On text without leading or trailing white space, `split(/\s+/)` yields one piece per word. */
  lemma {:induction false} SplitWsCountsWords(s: string)
    requires s != [] && !IsSpace(s[0]) && !IsSpace(s[|s| - 1])
    ensures |SplitWs(s)| == Words(s)
    decreases |s|
  {
    var i := FirstSpace(s);
    if i == |s| {
      SplitWsOneWord(s);
    } else {
      var j := i + LeadingSpaces(s[i..]);
      SplitWsGap(s, i, LeadingSpaces(s[i..]));
      SplitWsCountsWords(s[j..]);
      WordsAfterGap(s, i, j);
      SplitWsStep(s, i, j);
    }
  }

  lemma {:induction false} SplitWsOneWord(s: string)
    requires s != [] && FirstSpace(s) == |s|
    ensures |SplitWs(s)| == 1 == Words(s)
  {
    assert s[..|s|] == s;
    WordStartsNoSpace(s, true);
  }

  /** The first white-space run of a text that neither starts nor ends with white space. */
  lemma {:induction false} SplitWsGap(s: string, i: nat, n: nat)
    requires s != [] && !IsSpace(s[0]) && !IsSpace(s[|s| - 1])
    requires i == FirstSpace(s) < |s| && n == LeadingSpaces(s[i..])
    ensures 0 < i < i + n < |s|
    ensures NoSpace(s[..i]) && AllSpace(s[i..i + n])
    ensures s[i + n..] != [] && !IsSpace(s[i + n..][0]) && !IsSpace(s[i + n..][|s| - i - n - 1])
  {
    var j := i + n;
    assert s[i..j] == s[i..][..n];
    assert j < |s| by {
      assert !IsSpace(s[i..][|s| - 1 - i]);
    }
    assert s[j] == s[i..][n];
  }

  lemma {:induction false} SplitWsStep(s: string, i: nat, j: nat)
    requires i == FirstSpace(s) < |s| && j == i + LeadingSpaces(s[i..])
    ensures SplitWs(s) == [s[..i]] + SplitWs(s[j..])
  {
  }

  /** Leading and trailing white space add no words. */
  lemma {:induction false} WordsPadded(lead: string, r: string, tail: string)
    requires AllSpace(lead) && AllSpace(tail)
    ensures Words(lead + r + tail) == Words(r)
  {
    assert lead + r + tail == lead + (r + tail);
    WordStartsConcat(lead, r + tail, true);
    WordStartsAllSpace(lead, true);
    assert lead != [] ==> IsSpace(lead[|lead| - 1]);
    WordStartsConcat(r, tail, true);
    WordStartsAllSpace(tail, if r == [] then true else IsSpace(r[|r| - 1]));
  }

  /** Trimming leaves the word count unchanged. */
  lemma {:induction false} WordsOfTrim(s: string)
    ensures Words(Trim(s)) == Words(s)
  {
    var i := LeadingSpaces(s);
    var r := Trim(s);
    TrimShape(s);
    WordsPadded(s[..i], r, s[i + |r|..]);
  }

  /** The `WordCount` component: strip tags, trim, and count `split(/\s+/)` pieces, or 0 if
      nothing but white space is left. */
  function WordCount(text: string): (n: nat)
    ensures n == Words(StripTags(text))
    ensures n == 0 <==> AllSpace(StripTags(text))
  {
    var plain := Trim(StripTags(text));
    WordsOfTrim(StripTags(text));
    TrimShape(StripTags(text));
    if plain == [] then
      WordStartsAllSpace(StripTags(text), true);
      0
    else
      SplitWsCountsWords(plain);
      |SplitWs(plain)|
  }
}

=== FILE: transients.dfy ===
/** The one-shot sounds the interval timers play (`playBirdChirp`, `playOwlSound`) and what one
    firing of a timer does. Times are seconds on the context clock, `now` being `ctx.currentTime`. */
module Transients {
  import opened Common
  import opened Equalizer
  import opened SceneGraph

  /** An `AudioParam` automation event. */
  datatype Automation =
    | SetAt(value: real, time: real)
    | LinearTo(value: real, time: real)
    | ExponentialTo(value: real, time: real)

  /** An oscillator started at `startAt` through its own gain into the master gain, with the
      automation of its frequency and of that gain, stopped at `stopAt`. */
  datatype OneShot = OneShot(wave: Wave, frequency: seq<Automation>, gain: seq<Automation>, startAt: real, stopAt: real)

  /** A click-free envelope: silent at the start, a linear rise to `peak`, a linear fall back to
      silence, and the oscillator stopped only after the fall ends. */
  predicate Envelope(s: OneShot, now: real, peak: real)
  {
    && s.startAt == now
    && |s.gain| == 3
    && s.gain[0] == SetAt(0.0, now)
    && s.gain[1].LinearTo? && s.gain[1].value == peak
    && s.gain[2].LinearTo? && s.gain[2].value == 0.0
    && now < s.gain[1].time < s.gain[2].time < s.stopAt
  }

  /** A frequency set at `now` then ramped exponentially to another value. */
  predicate Sweep(s: OneShot, now: real, end: real)
  {
    && |s.frequency| == 2
    && s.frequency[0].SetAt? && s.frequency[0].time == now
    && s.frequency[1].ExponentialTo? && s.frequency[1].time == end
    && 0.0 < s.frequency[0].value && 0.0 < s.frequency[1].value
  }

  /** `playBirdChirp(ctx, masterGain, eq)`; `r1` and `r2` are its two `Math.random()` draws. */
  function BirdChirp(now: real, eq: Eq, r1: Rand, r2: Rand): (s: OneShot)
    ensures s.wave == Sine
    ensures Envelope(s, now, Scaled(0.05, eq.midHigh))
    ensures s.gain[1].time == now + 0.05 && s.gain[2].time == now + 0.2 && s.stopAt == now + 0.25
    ensures Sweep(s, now, now + 0.1)
    ensures 2000.0 <= s.frequency[0].value < 3000.0 && 4000.0 <= s.frequency[1].value < 5000.0
    ensures s.frequency[0].value < s.frequency[1].value
  {
    OneShot(Sine,
      [SetAt(2000.0 + r1 * 1000.0, now), ExponentialTo(4000.0 + r2 * 1000.0, now + 0.1)],
      [SetAt(0.0, now), LinearTo(Scaled(0.05, eq.midHigh), now + 0.05), LinearTo(0.0, now + 0.2)],
      now, now + 0.25)
  }

  /** `playOwlSound(ctx, masterGain)`: a falling sawtooth hoot; its level ignores the equalizer. */
  function OwlCall(now: real): (s: OneShot)
    ensures s.wave == Sawtooth
    ensures Envelope(s, now, 0.03)
    ensures s.gain[1].time == now + 0.1 && s.gain[2].time == now + 0.3 && s.stopAt == now + 0.35
    ensures Sweep(s, now, now + 0.3)
    ensures s.frequency[0].value == 800.0 && s.frequency[1].value == 500.0
  {
    OneShot(Sawtooth,
      [SetAt(800.0, now), ExponentialTo(500.0, now + 0.3)],
      [SetAt(0.0, now), LinearTo(0.03, now + 0.1), LinearTo(0.0, now + 0.3)],
      now, now + 0.35)
  }

  /** The graph after a firing, and the sound it started if any. */
  datatype FireOutcome = FireOutcome(graph: Graph, played: Option<OneShot>)

  /** Entry `k` is an interval that has not been cleared, so its timer still fires. */
  predicate Armed(g: Graph, k: nat)
  {
    k < |g.owned| && g.owned[k].Interval? && !g.owned[k].cleared
  }

  /** One firing of the interval at `owned[k]`: with the context closed it clears itself and plays
      nothing; otherwise it plays its one-shot into the graph's master gain. */
  function Fire(g: Graph, k: nat, closed: bool, now: real, r1: Rand, r2: Rand): (o: FireOutcome)
    ensures !Armed(g, k) ==> o == FireOutcome(g, None)
    ensures Armed(g, k) && closed ==> o.played == None && !Armed(o.graph, k)
    ensures Armed(g, k) && closed ==> |o.graph.owned| == |g.owned| && o.graph.owned[k] == g.owned[k].(cleared := true)
    ensures Armed(g, k) && !closed ==> o.graph == g && o.played.Some?
    ensures Armed(g, k) && !closed && g.owned[k].transient == BirdChirps ==> o.played == Some(BirdChirp(now, g.eq, r1, r2))
    ensures Armed(g, k) && !closed && g.owned[k].transient == OwlCalls ==> o.played == Some(OwlCall(now))
    ensures |o.graph.owned| == |g.owned|
    ensures forall j :: 0 <= j < |g.owned| && j != k ==> o.graph.owned[j] == g.owned[j]
    ensures o.graph == g.(owned := o.graph.owned)
    ensures Active(o.graph) ==> Active(g)
  {
    if !Armed(g, k) then FireOutcome(g, None)
    else if closed then
      var g' := g.(owned := g.owned[k := g.owned[k].(cleared := true)]);
      assert forall j :: 0 <= j < |g'.owned| && Holds(g'.owned[j]) ==> Holds(g.owned[j]);
      FireOutcome(g', None)
    else
      match g.owned[k].transient
      case BirdChirps => FireOutcome(g, Some(BirdChirp(now, g.eq, r1, r2)))
      case OwlCalls => FireOutcome(g, Some(OwlCall(now)))
  }

  /** Once an interval has cleared itself it never fires again. */
  lemma ClearedStaysSilent(g: Graph, k: nat, now: real, now': real, r1: Rand, r2: Rand)
    requires Armed(g, k)
    ensures var o := Fire(g, k, true, now, r1, r2);
      Fire(o.graph, k, true, now', r1, r2) == o && Fire(o.graph, k, false, now', r1, r2) == o
  {
  }
}
